=== FILE: README.md ===
# Minesweeper agent and Tic-Tac-Toe rules, modelled in Dafny

This project models two game programs from a course on artificial intelligence:

- **Minesweeper** (`minesweeper/minesweeper.py`). It has three parts.
  - The game board (`Minesweeper`) answers whether a cell is a mine and how many mines surround a cell, and it decides whether the player has won.
  - A `Sentence` is a logical statement "exactly `count` of these `cells` are mines". It can name the cells it proves to be mines or safe, and it can forget a cell once that cell is resolved.
  - The knowledge-based agent (`MinesweeperAI`) records each revealed count as a new sentence. It then propagates what the sentences prove, derives new sentences by the subset rule, and picks a safe or a random move.
- **Tic-Tac-Toe** (`tictactoe/tictactoe.py`). This covers:
  - the empty starting board, whose turn it is, and the open moves;
  - the board after a move;
  - the four line checks (rows, columns, the two diagonals);
  - `winner` and `utility`.

The model is functional. Each mutating method of the source is a function from the old state to the new one. Each loop is a recursive function or a `while` loop with invariants.

Files:

| file | module | contents |
|---|---|---|
| `wrappers.dfy` | `Wrappers` | `Option`, and `Result` for operations that raise |
| `coords.dfy` | `Coords` | cells, the 3x3 window around a cell, counting helpers |
| `mines_board.dfy` | `MinesBoard` | the game board and its queries |
| `sentences.dfy` | `Sentences` | sentences, what they prove, marking cells in them |
| `agent.dfy` | `Agent` | the agent's state, `add_knowledge` step by step, move selection |
| `agent_soundness.dfy` | `AgentSoundness` | the agent never believes anything false, on boards of two rows or more |
| `tictactoe.dfy` | `TicTacToe` | the Tic-Tac-Toe rules |

## Behaviour as written

The model follows the code, including the places where it departs from what its comments describe.

- **Row test of the evidence loop.** `add_knowledge` filters neighbour cells with `0 <= 1 < self.height` (minesweeper.py:216), a constant test, instead of testing the row `i`. The effects depend on the height:
  - On a board of two or more rows, cells above or below the board enter the evidence sentence. Such a cell is never a mine, so soundness still holds (`AgentSoundness.AddKnowledgeSound`). Such cells can still be recorded as safe (`AgentSoundness.CellAboveMarkedSafe`).
  - On a one-row board, every neighbour is dropped but the count is kept. The agent then holds a false sentence such as `{} = 1` (`AgentSoundness.OneRowEvidenceFalse`).
- **Propagation is one pass.** Each sentence is visited once (minesweeper.py:230-236). A cell that a later sentence proves is marked in every sentence, earlier ones included. But the pass does not return to an earlier sentence to see whether that marking made it prove something new (`Agent.PropagateIsSinglePass`). In general a pass records exactly what each sentence proves when the pass reaches it, and nothing else (`Agent.PropagateProves`).
- **The subset loop visits its own derivations.** The loop walks the list it appends to (minesweeper.py:239-250). A derived sentence is therefore visited in turn, and the rule may fire on it again. The loop still terminates: the rule fires only on a sentence with a positive count, and the sentence it derives has a lower count than the one it came from, because the new sentence's count is positive too. So each sentence starts a chain of firings no longer than its count. `Agent.SubsetPass` carries that measure (`Agent.Work`).
- **The subset loop uses the evidence sentence as propagation left it.** `newSentence` is the same object as the last element of `knowledge` (minesweeper.py:224-227), so propagation changes it too.
- **No deduplication.** Sentences are never deduplicated.
- **`winner` tests X twice.** Its second branch repeats the X checks (tictactoe.py:145-151). As a result, `winner` never reports O and `utility` never returns -1 (`TicTacToe.WinnerMissesO`).
- **`result` has a misspelt call.** `result` calls `copy.deepcoy` (tictactoe.py:67), so as written every legal move raises an attribute error. The model gives `result` the behaviour its docstring and comment describe: copy the board and place the mover's mark.

## Model

| member | source | states |
|---|---|---|
| `MinesBoard.IsMine` | minesweeper/minesweeper.py:51-56 | on a consistent board, the answer is true exactly for the cells in the mine set; cells off the board are never mines |
| `MinesBoard.CountNearby` | minesweeper/minesweeper.py:65-80 | the counting loop counts the window positions that hold a mine other than the cell itself |
| `MinesBoard.NearbyMines` | minesweeper/minesweeper.py:58-80 | the count is the number of mines among the eight neighbours of the cell, and so at most 8 |
| `MinesBoard.Won` | minesweeper/minesweeper.py:82-86 | the game is won exactly when every mine is flagged and every flag is on a mine |
| `MinesBoard.WonNeedsEveryFlag` | minesweeper/minesweeper.py:82-86 | a flag on a safe cell or an unflagged mine rules out a win; flagging a mine wins exactly when it was the last unflagged one |
| `Coords.Neighbours` | minesweeper/minesweeper.py:68-73 | the window loop without the cell itself covers exactly the eight cells around it |
| `Sentences.KnownMines` | minesweeper/minesweeper.py:106-112 | all cells are known mines exactly when there are as many cells as mines and the count is not zero; otherwise none are |
| `Sentences.KnownSafes` | minesweeper/minesweeper.py:114-120 | all cells are known safe when the count is zero; otherwise none are |
| `Sentences.MarkMine` | minesweeper/minesweeper.py:122-129 | a mentioned cell is removed and the count drops by one; an unmentioned cell leaves the sentence unchanged |
| `Sentences.MarkSafe` | minesweeper/minesweeper.py:131-137 | a mentioned cell is removed and the count is kept; an unmentioned cell leaves the sentence unchanged |
| `Sentences.MarkMines` | minesweeper/minesweeper.py:122-129 | marking a set of mines removes exactly those cells |
| `Sentences.MarkSafes` | minesweeper/minesweeper.py:131-137 | marking a set of safe cells removes exactly those cells and keeps the count |
| `Sentences.MarkIdempotent` | minesweeper/minesweeper.py:122-137 | marking the same cell twice, as mine or as safe, is the same as marking it once |
| `Sentences.MarkMineExtends` | minesweeper/minesweeper.py:122-129 | marking one more mine after a set of mines is marking the enlarged set |
| `Sentences.MarkSafeExtends` | minesweeper/minesweeper.py:131-137 | marking one more safe cell after a set of safe cells is marking the enlarged set |
| `Sentences.SingleMarks` | minesweeper/minesweeper.py:122-137 | marking one cell is marking the singleton set |
| `Sentences.KnownMinesSound` | minesweeper/minesweeper.py:106-112 | the cells a true sentence calls mines are mines |
| `Sentences.KnownSafesSound` | minesweeper/minesweeper.py:114-120 | the cells a true sentence calls safe hold no mine |
| `Sentences.MarkMinesSound` | minesweeper/minesweeper.py:122-129 | removing real mines keeps a true sentence true |
| `Sentences.MarkSafesSound` | minesweeper/minesweeper.py:131-137 | removing safe cells keeps a true sentence true |
| `Agent.Start` | minesweeper/minesweeper.py:145-158 | a fresh agent has the given size, no moves, no known mines or safe cells, and no sentences |
| `Agent.MarkMineAll` | minesweeper/minesweeper.py:168-170 | the broadcast marks the mine in every sentence, keeping the order and the length of the knowledge |
| `Agent.MarkSafeAll` | minesweeper/minesweeper.py:180-182 | the broadcast marks the cell safe in every sentence, keeping the order and the length of the knowledge |
| `Agent.MarkMine` | minesweeper/minesweeper.py:160-170 | the cell joins the known mines and no sentence mentions it afterwards; each sentence that did loses one cell and one mine; nothing else changes |
| `Agent.MarkSafe` | minesweeper/minesweeper.py:172-182 | the cell joins the known safe cells and no sentence mentions it afterwards; every count is kept; nothing else changes |
| `Agent.MarkMines` | minesweeper/minesweeper.py:229-233 | marking a set of mines adds the set to the known mines and marks it in each sentence; nothing else changes |
| `Agent.MarkSafes` | minesweeper/minesweeper.py:234-236 | marking a set of safe cells adds the set to the known safe cells and marks it in each sentence; nothing else changes |
| `Agent.MarkMinesInOrder` | minesweeper/minesweeper.py:232-233 | marking the cells of an enumeration one at a time adds exactly those cells to the known mines; only the known mines and the sentences change, and the number of sentences is kept |
| `Agent.MarkSafesInOrder` | minesweeper/minesweeper.py:235-236 | marking the cells of an enumeration one at a time adds exactly those cells to the known safe cells; only the known safe cells and the sentences change, and the number of sentences is kept |
| `Agent.MarkMinesOrderIrrelevant` | minesweeper/minesweeper.py:232-233 | marking mines one at a time in any order, even with repeats, ends where marking the set at once ends |
| `Agent.MarkSafesOrderIrrelevant` | minesweeper/minesweeper.py:235-236 | marking safe cells one at a time in any order, even with repeats, ends where marking the set at once ends |
| `Agent.MarkNothing` | minesweeper/minesweeper.py:229-236 | marking the empty set changes nothing, which is why the source's emptiness tests do not matter |
| `Agent.MarkInAnyOrder` | minesweeper/minesweeper.py:229-236 | whatever order the set iteration takes, the one-cell-at-a-time loops give the batch result |
| `Agent.Undetermined` | minesweeper/minesweeper.py:214-221 | a cell of the window is kept exactly when it passes the filter as written: column on the board, not known safe, not a known mine (the row test is constant) |
| `Agent.Revealed` | minesweeper/minesweeper.py:199-203 | the move is recorded and the revealed cell is known safe; every sentence loses that cell and keeps its count; the known mines, the board size and the number of sentences are kept |
| `Agent.WithEvidence` | minesweeper/minesweeper.py:199-227 | the revealed state with one sentence more: the earlier sentences as the reveal left them, then the evidence sentence, which names exactly the filtered cells around the revealed cell (never the cell itself) and carries the revealed count less the known mines in the window |
| `Agent.Evidence` | minesweeper/minesweeper.py:205-224 | the new sentence names exactly the filtered cells around the revealed cell, none of them resolved; its count is the revealed count less the known mines in the window |
| `Agent.MineStep` | minesweeper/minesweeper.py:230-233 | every cell the visited sentence calls a mine is a known mine afterwards; the number of sentences is kept |
| `Agent.Step` | minesweeper/minesweeper.py:230-236 | after a visit, the cells the sentence calls safe once its mines are marked are known safe; the known mines and safe cells only grow, and only by cells of the visited sentence; every sentence's cells only shrink; moves and size are kept |
| `Agent.Propagate` | minesweeper/minesweeper.py:229-236 | one pass keeps the number of sentences, only shrinks each sentence's cells, only grows the known mines and safe cells (and only by cells some sentence mentioned), keeps the moves and size, and keeps a clean sentence clean; what the pass records and strips is stated by `Agent.PropagateProves`, `Agent.PropagateRecords`, `Agent.PropagateStrips` and `Agent.PropagateCounts` |
| `Agent.StepAdds` | minesweeper/minesweeper.py:230-236 | one visit adds to the known mines exactly the mines the visited sentence names, then to the known safe cells exactly the safe cells it names once those mines are marked; the mine step adds no safe cell and the safe step no mine |
| `Agent.PropagateProves` | minesweeper/minesweeper.py:229-236 | a pass records exactly what its sentences prove as it reaches them, each sentence once, and nothing more: the known mines end as the old ones plus `Agent.ProvedMines`, the known safe cells as the old ones plus `Agent.ProvedSafes`, so a second pass or a second look at a sentence does not fit |
| `Agent.PropagateRecords` | minesweeper/minesweeper.py:229-236 | whatever a sentence proves when the pass reaches it is recorded by the end of the pass: its known mines, then the known safe cells of what marking those mines left of it |
| `Agent.StepStrips` | minesweeper/minesweeper.py:229-236 | one visit leaves a clean sentence clean: it loses exactly the cells now resolved, and its count drops by the newly recorded mines among its cells |
| `Agent.PropagateStrips` | minesweeper/minesweeper.py:229-236 | a pass leaves a clean sentence clean, less exactly the cells resolved by the end of the pass |
| `Agent.PropagateCounts` | minesweeper/minesweeper.py:229-236 | when no cell ends up both mine and safe, a pass lowers a clean sentence's count by exactly the recorded mines among its cells |
| `Agent.PropagateIsSinglePass` | minesweeper/minesweeper.py:229-236 | knowledge [{a, b} = 1, {b} = 1] ends with {a} = 0 as its first sentence, yet a is not recorded as safe |
| `Agent.Derive` | minesweeper/minesweeper.py:246-250 | the derived sentence names the larger sentence's cells outside the new one, disjoint from them, and the difference of the counts |
| `Agent.SubsetPass` | minesweeper/minesweeper.py:238-250 | the loop keeps the knowledge as a prefix; each appended sentence is derived from an earlier sentence that the rule fires on; every sentence the rule fires on has its derivation appended after it |
| `Agent.Firings` | minesweeper/minesweeper.py:239-245 | the listed indices are exactly those from the start index on at which the subset test passes, in increasing order |
| `Agent.SubsetPassFirings` | minesweeper/minesweeper.py:238-250 | the loop appends exactly one sentence per firing and nothing else: the result is as long as the knowledge plus the firings, and the m-th appended sentence is derived from the sentence of the m-th firing (through `Agent.AppendsFirings`) |
| `Agent.DerivedInOrderAt` | minesweeper/minesweeper.py:246-250 | derivations placed in firing order sit position by position: the m-th is at the base index plus m and is derived from the sentence at the m-th firing |
| `Agent.SubsetPassAvoids` | minesweeper/minesweeper.py:238-250 | if no sentence mentions a cell of a given set, no derived sentence does either |
| `Agent.AddKnowledge` | minesweeper/minesweeper.py:184-250 | the move is recorded and the cell is known safe; known mines and safe cells only grow; the evidence sentence, as it ends up, mentions only unresolved cells around the move in on-board columns; each appended sentence is derived from an earlier one the rule fires on, and every firing has its derivation appended; what the move records, what each sentence keeps and what is appended are stated by the `Agent.AddKnowledge…` lemmas below |
| `Agent.AddKnowledgeProves` | minesweeper/minesweeper.py:184-250 | after a move the known mines are exactly the old ones plus what the single propagation pass proves, and the known safe cells exactly the old ones plus the revealed cell plus what that pass proves; the subset loop records nothing |
| `Agent.AddKnowledgeRecords` | minesweeper/minesweeper.py:184-236 | after a move, whatever each sentence proves when the propagation pass reaches it is recorded: its known mines and then its known safe cells |
| `Agent.AddKnowledgeStripsOld` | minesweeper/minesweeper.py:184-250 | from clean knowledge, each earlier sentence survives a move, less exactly the cells resolved by the move's end |
| `Agent.AddKnowledgeCountsOld` | minesweeper/minesweeper.py:184-250 | from clean knowledge, when no cell ends up both mine and safe, each earlier sentence's count drops by exactly the recorded mines among its cells |
| `Agent.AddKnowledgeEvidence` | minesweeper/minesweeper.py:205-236 | the evidence sentence as the move leaves it is the one built from the revealed count, less the cells resolved by the move's end; when no cell ends up both mine and safe, its count drops by the recorded mines among its cells |
| `Agent.AddKnowledgeUnfolds` | minesweeper/minesweeper.py:227-250 | the knowledge after a move is what the subset loop, run against the evidence sentence as propagation left it, makes of the propagated knowledge, which holds one sentence more than before the move |
| `Agent.SubsetPassLength` | minesweeper/minesweeper.py:238-250 | the loop run from the start leaves the knowledge longer by exactly the number of firings |
| `Agent.SubsetPassAppendedAt` | minesweeper/minesweeper.py:238-250 | the loop run from the start puts the derivation of the m-th firing's sentence at the old length plus m |
| `Agent.AddKnowledgeAppends` | minesweeper/minesweeper.py:238-250 | after the evidence sentence come exactly its derivations, one per firing of the subset rule in knowledge order, the m-th derived from the m-th firing's sentence, duplicates kept |
| `Agent.AddKnowledgeKeepsClean` | minesweeper/minesweeper.py:184-250 | if no sentence mentions a resolved cell before a move, none does after it |
| `Agent.MakeSafeMove` | minesweeper/minesweeper.py:252-264 | the result is a known safe cell not yet played, and None exactly when every known safe cell has been played |
| `Agent.MakeRandomMove` | minesweeper/minesweeper.py:266-281 | the result is an on-board cell neither played nor a known mine, and None exactly when no such cell exists |
| `AgentSoundness.SoundCountsInRange` | minesweeper/minesweeper.py:96-98 | a true sentence's count lies between 0 and its number of cells |
| `AgentSoundness.MarkMinesKeepsSound` | minesweeper/minesweeper.py:160-170 | marking real mines keeps the agent's beliefs true |
| `AgentSoundness.MarkSafesKeepsSound` | minesweeper/minesweeper.py:172-182 | marking safe cells keeps the agent's beliefs true |
| `AgentSoundness.MarkSafeKeepsSound` | minesweeper/minesweeper.py:172-182 | marking one safe cell keeps the agent's beliefs true |
| `AgentSoundness.PropagateSound` | minesweeper/minesweeper.py:229-236 | over true knowledge, propagation marks only real mines as mines and only safe cells as safe |
| `AgentSoundness.DeriveSound` | minesweeper/minesweeper.py:240-250 | the subset rule derives a true sentence from two true ones |
| `AgentSoundness.SubsetPassSound` | minesweeper/minesweeper.py:238-250 | over true knowledge, the subset loop appends only true sentences |
| `AgentSoundness.WindowMinesSplit` | minesweeper/minesweeper.py:209-221 | on a board of two or more rows, the mines in the window around a cell are the already known mines there plus the mines among the cells the filter keeps |
| `AgentSoundness.WithEvidenceSound` | minesweeper/minesweeper.py:199-227 | on a board of two or more rows, recording a mine-free move and appending the evidence sentence of its true count keeps the agent sound |
| `AgentSoundness.EvidenceSound` | minesweeper/minesweeper.py:205-224 | on a board of two or more rows, the evidence sentence built from a true count is true |
| `AgentSoundness.AddKnowledgeSound` | minesweeper/minesweeper.py:184-250 | on a board of two or more rows, revealing a mine-free cell with its true count keeps everything the agent believes true |
| `AgentSoundness.OneRowFirstMove` | minesweeper/minesweeper.py:205-224 | on a board of at most one row, the first move leaves exactly one sentence, which has no cells and carries the revealed count less the known mines in the window |
| `AgentSoundness.EmptySentenceInert` | minesweeper/minesweeper.py:229-236 | a pass over a single sentence without cells changes nothing |
| `AgentSoundness.SelfOnlyInert` | minesweeper/minesweeper.py:240-245 | the subset rule never fires on the new sentence against itself |
| `AgentSoundness.OneRowFalseBelief` | minesweeper/minesweeper.py:215-227 | on a board of at most one row, a first move with a nonzero count makes the agent believe something false, whatever the mines |
| `AgentSoundness.OneRowBoard` | minesweeper/minesweeper.py:58-80 | the one-row board with a mine at (0, 0) is consistent, and (0, 1) has one neighbouring mine |
| `AgentSoundness.OneRowEvidenceFalse` | minesweeper/minesweeper.py:215-224 | on the one-row board with a mine at (0, 0), revealing (0, 1) makes the agent believe the false sentence {} = 1 |
| `AgentSoundness.CellAboveMarkedSafe` | minesweeper/minesweeper.py:209-236 | on a board of two or more rows, when the agent has no sentences and knows no mines, revealing a zero at a cell in an on-board column records the cell above it as safe, even when that cell lies above the board |
| `TicTacToe.InitialState` | tictactoe/tictactoe.py:14-18 | every square of the starting board is empty |
| `TicTacToe.CountMark` | tictactoe/tictactoe.py:29-36 | the counting loop counts the visited squares that hold the mark |
| `TicTacToe.Player` | tictactoe/tictactoe.py:21-41 | O moves exactly when X has more marks on the board; X moves otherwise |
| `TicTacToe.EmptyAmong` | tictactoe/tictactoe.py:49-53 | the collecting loop keeps exactly the visited squares that are empty |
| `TicTacToe.Actions` | tictactoe/tictactoe.py:43-55 | the open moves are exactly the empty squares of the board |
| `TicTacToe.Place` | tictactoe/tictactoe.py:66-68 | the chosen square holds the mark and every other square is kept |
| `TicTacToe.ResultOf` | tictactoe/tictactoe.py:58-69 | a move succeeds exactly when it is open; a refused move gives the invalid-action error; a legal move puts the mover's mark on that square and keeps all others |
| `TicTacToe.RowsFrom` | tictactoe/tictactoe.py:75-82 | the row loop from a given row answers whether some later row is full of the mark |
| `TicTacToe.ColsFrom` | tictactoe/tictactoe.py:88-95 | the column loop from a given column answers whether some later column is full of the mark |
| `TicTacToe.CheckRows` | tictactoe/tictactoe.py:74-82 | true exactly when some row is full of the mark |
| `TicTacToe.CheckCols` | tictactoe/tictactoe.py:87-95 | true exactly when some column is full of the mark |
| `TicTacToe.CountPrimary` | tictactoe/tictactoe.py:104-108 | the counting loop counts the visited squares on the leading diagonal that hold the mark |
| `TicTacToe.CountSecond` | tictactoe/tictactoe.py:120-124 | the counting loop counts the visited squares on the other diagonal that hold the mark |
| `TicTacToe.PrimaryCount` | tictactoe/tictactoe.py:103-112 | the leading diagonal's count reaches three exactly when all three of its squares hold the mark |
| `TicTacToe.PrimaryFull` | tictactoe/tictactoe.py:103-112 | the mark holds three squares of the leading diagonal exactly when all three of its squares hold it |
| `TicTacToe.SecondCount` | tictactoe/tictactoe.py:119-128 | the other diagonal's count reaches three exactly when all three of its squares hold the mark |
| `TicTacToe.SecondFull` | tictactoe/tictactoe.py:119-128 | the mark holds three squares of the other diagonal exactly when all three of its squares hold it |
| `TicTacToe.CheckPrimary` | tictactoe/tictactoe.py:103-112 | true exactly when the leading diagonal is full of the mark |
| `TicTacToe.CheckSecond` | tictactoe/tictactoe.py:119-128 | true exactly when the diagonal from bottom-left to top-right is full of the mark |
| `TicTacToe.RowsAreLines` | tictactoe/tictactoe.py:74-82 | the row check finds exactly the three row lines |
| `TicTacToe.ColsAreLines` | tictactoe/tictactoe.py:87-95 | the column check finds exactly the three column lines |
| `TicTacToe.DiagonalsAreLines` | tictactoe/tictactoe.py:103-128 | the two diagonal checks find exactly the two diagonal lines |
| `TicTacToe.ChecksFindLines` | tictactoe/tictactoe.py:138-143 | the four checks together fire exactly when the mark holds one of the eight winning lines |
| `TicTacToe.Winner` | tictactoe/tictactoe.py:134-153 | reports X exactly when X holds a line, nobody otherwise, and never O |
| `TicTacToe.Utility` | tictactoe/tictactoe.py:177-186 | 1 exactly when X holds a line, 0 otherwise, and never -1 |
| `TicTacToe.WinnerMissesO` | tictactoe/tictactoe.py:145-151 | a board where O holds the top row has no winner and is scored 0 |
| `TicTacToe.SquaresCovered` | tictactoe/tictactoe.py:29-53 | every square is empty or holds X or O |
| `TicTacToe.SquaresDisjoint` | tictactoe/tictactoe.py:29-53 | no square is both empty and marked, or marked by both players |
| `TicTacToe.SquaresPartition` | tictactoe/tictactoe.py:29-53 | the open moves and the two players' squares number nine together |
| `TicTacToe.InitialStateOpen` | tictactoe/tictactoe.py:14-55 | on the starting board X moves first and all nine squares are open |
| `TicTacToe.PlaceCloses` | tictactoe/tictactoe.py:66-68 | marking an open square removes it from the open moves and keeps the rest open |
| `TicTacToe.PlaceAddsMark` | tictactoe/tictactoe.py:66-68 | marking an open square adds exactly that square to the marker's squares |
| `TicTacToe.PlaceKeepsOther` | tictactoe/tictactoe.py:66-68 | marking an open square leaves the other player's squares unchanged |
| `TicTacToe.ResultTakesSquare` | tictactoe/tictactoe.py:58-69 | a legal move closes its square, gives it to the mover, and leaves the opponent's squares alone |
| `TicTacToe.TurnsAlternate` | tictactoe/tictactoe.py:21-69 | from a board where X leads by zero or one, a legal move keeps it so and passes the turn to the other player |

## Left out

- The random mine placement of the `Minesweeper` constructor (minesweeper.py:11-34) uses a random source. A board is instead given as data, together with the invariant the constructor establishes (`MinesBoard.Valid`).
- `MinesBoard.IsMine`: requires that invariant. The source accepts any board object but only ever builds consistent ones.
- `Minesweeper.print` is text output only.
- `Sentence.__init__`, `__eq__` and `__str__` are not modelled as members. The datatype's constructor and structural equality take their place, and the string form is output only.
- `Agent.MakeRandomMove`: the uniform random draw is a nondeterministic choice among the candidate cells. The contract says which cells can be drawn, not their probabilities.
- `Agent.MakeSafeMove`: the order in which a Python set is iterated is not specified, so the model picks any unplayed safe cell. The contract states that any such cell may be returned.
- `Agent.AddKnowledge`: the loops over a set of known mines or safe cells are modelled as marking the whole set at once. `Agent.MarkInAnyOrder` proves this equal to every one-at-a-time order. Python's `cell` variable, which the propagation loop rebinds, is not used afterwards and is not modelled.
- `Agent.PropagateCounts`, `Agent.AddKnowledgeCountsOld`, `Agent.AddKnowledgeEvidence`: the count equations are stated only when no cell is recorded as both mine and safe. When a cell is recorded as both, the count a sentence ends with depends on which marking reached it first. For a sound agent that case does not arise (`AgentSoundness.AddKnowledgeSound`).
- `Agent.AddKnowledgeStripsOld`, `Agent.AddKnowledgeCountsOld`: stated only from clean knowledge, where no sentence mentions a resolved cell. A fresh agent is clean and every move keeps it clean (`Agent.AddKnowledgeKeepsClean`), so this covers every state the agent reaches.
- Mutation through aliasing is modelled by value: the subset loop reads the evidence sentence back out of the knowledge after propagation.
- `TicTacToe.ResultOf`: models the intended copy-and-place. As written, the misspelt `copy.deepcoy` makes every legal move raise an attribute error. The deep copy itself is implicit, because boards are values.
- Boards are 3x3 by type (`TicTacToe.Board`). The source's loops take their bounds from the board, but its line checks index rows and columns 0 to 2 directly.
- `terminal`, `max_value`, `min_value` and `minimax` (tictactoe.py:160-229) are the search around the rules and are not part of this model. `terminal` as written also reads undefined variables.
- The `pagerank` program is not part of this model.

=== FILE: agent.dfy ===
/**
 * The Minesweeper agent (`MinesweeperAI`): what it has learnt, how a revealed
 * count becomes new knowledge, and how it picks its next move.
 */
module Agent {
  import opened Wrappers
  import opened Coords
  import S = Sentences

  /**
   * The agent's knowledge: the board size it was told, the cells it has played,
   * the cells it has proved to be mines or safe, and its list of sentences.
   */
  datatype State = State(height: int, width: int, movesMade: set<Coord>,
                         mines: set<Coord>, safes: set<Coord>, knowledge: seq<S.Sentence>)

  /** A fresh agent for a board of the given size knows nothing. */
  function Start(height: int, width: int): (st: State)
    ensures st.height == height && st.width == width
    ensures st.movesMade == {} && st.mines == {} && st.safes == {} && st.knowledge == []
  {
    State(height, width, {}, {}, {}, [])
  }

  /** Every cell that some sentence of `ks` still mentions. */
  function Mentioned(ks: seq<S.Sentence>): set<Coord>
  {
    set i, p | 0 <= i < |ks| && p in ks[i].cells :: p
  }

  /** The sentence at `i` mentions no cell the agent has already resolved. */
  predicate CleanAt(st: State, i: int)
    requires 0 <= i < |st.knowledge|
  {
    st.knowledge[i].cells !! st.mines + st.safes
  }

  /** No sentence mentions a cell the agent has already resolved. */
  predicate Clean(st: State)
  {
    forall i :: 0 <= i < |st.knowledge| ==> CleanAt(st, i)
  }

  /** Each sentence of `ks` with `c` marked as a mine, order and length kept. */
  function MarkMineAll(ks: seq<S.Sentence>, c: Coord): (r: seq<S.Sentence>)
    ensures |r| == |ks|
    ensures forall i :: 0 <= i < |r| ==> r[i] == S.MarkMine(ks[i], c)
  {
    seq(|ks|, i requires 0 <= i < |ks| => S.MarkMine(ks[i], c))
  }

  /** Each sentence of `ks` with `c` marked safe, order and length kept. */
  function MarkSafeAll(ks: seq<S.Sentence>, c: Coord): (r: seq<S.Sentence>)
    ensures |r| == |ks|
    ensures forall i :: 0 <= i < |r| ==> r[i] == S.MarkSafe(ks[i], c)
  {
    seq(|ks|, i requires 0 <= i < |ks| => S.MarkSafe(ks[i], c))
  }

  /**
   * Record `c` as a mine and broadcast it: afterwards `c` is a known mine and no
   * sentence mentions it; each sentence that did has lost one cell and one mine.
   */
  function MarkMine(st: State, c: Coord): (r: State)
    ensures r.mines == st.mines + {c}
    ensures r == st.(mines := r.mines, knowledge := r.knowledge)
    ensures |r.knowledge| == |st.knowledge|
    ensures forall i :: 0 <= i < |r.knowledge| ==>
              c !in r.knowledge[i].cells && r.knowledge[i].cells == st.knowledge[i].cells - {c}
    ensures forall i :: 0 <= i < |r.knowledge| ==>
              r.knowledge[i].count == st.knowledge[i].count - (if c in st.knowledge[i].cells then 1 else 0)
  {
    st.(mines := st.mines + {c}, knowledge := MarkMineAll(st.knowledge, c))
  }

  /**
   * Record `c` as safe and broadcast it: afterwards `c` is a known safe cell and
   * no sentence mentions it; every mine count is unchanged.
   */
  function MarkSafe(st: State, c: Coord): (r: State)
    ensures r.safes == st.safes + {c}
    ensures r == st.(safes := r.safes, knowledge := r.knowledge)
    ensures |r.knowledge| == |st.knowledge|
    ensures forall i :: 0 <= i < |r.knowledge| ==>
              c !in r.knowledge[i].cells && r.knowledge[i].cells == st.knowledge[i].cells - {c}
              && r.knowledge[i].count == st.knowledge[i].count
  {
    st.(safes := st.safes + {c}, knowledge := MarkSafeAll(st.knowledge, c))
  }

  /** Every cell of `cs` marked as a mine, in no particular order. */
  function MarkMines(st: State, cs: set<Coord>): (r: State)
    ensures r.mines == st.mines + cs
    ensures r == st.(mines := r.mines, knowledge := r.knowledge)
    ensures |r.knowledge| == |st.knowledge|
    ensures forall i :: 0 <= i < |r.knowledge| ==> r.knowledge[i] == S.MarkMines(st.knowledge[i], cs)
  {
    st.(mines := st.mines + cs,
        knowledge := seq(|st.knowledge|, i requires 0 <= i < |st.knowledge| => S.MarkMines(st.knowledge[i], cs)))
  }

  /** Every cell of `cs` marked safe, in no particular order. */
  function MarkSafes(st: State, cs: set<Coord>): (r: State)
    ensures r.safes == st.safes + cs
    ensures r == st.(safes := r.safes, knowledge := r.knowledge)
    ensures |r.knowledge| == |st.knowledge|
    ensures forall i :: 0 <= i < |r.knowledge| ==> r.knowledge[i] == S.MarkSafes(st.knowledge[i], cs)
  {
    st.(safes := st.safes + cs,
        knowledge := seq(|st.knowledge|, i requires 0 <= i < |st.knowledge| => S.MarkSafes(st.knowledge[i], cs)))
  }

  /** Marks each cell of `order` as a mine, one at a time, in the enumeration's order. */
  function MarkMinesInOrder(st: State, order: seq<Coord>): (r: State)
    ensures r.mines == st.mines + Elems(order)
    ensures r == st.(mines := r.mines, knowledge := r.knowledge)
    ensures |r.knowledge| == |st.knowledge|
    decreases |order|
  {
    if order == [] then st
    else
      assert Elems(order) == {order[0]} + Elems(order[1..]);
      MarkMinesInOrder(MarkMine(st, order[0]), order[1..])
  }

  /** Marks each cell of `order` as safe, one at a time, in the enumeration's order. */
  function MarkSafesInOrder(st: State, order: seq<Coord>): (r: State)
    ensures r.safes == st.safes + Elems(order)
    ensures r == st.(safes := r.safes, knowledge := r.knowledge)
    ensures |r.knowledge| == |st.knowledge|
    decreases |order|
  {
    if order == [] then st
    else
      assert Elems(order) == {order[0]} + Elems(order[1..]);
      MarkSafesInOrder(MarkSafe(st, order[0]), order[1..])
  }

  /**
   * Marking cells one at a time, in whatever order the set is enumerated and even
   * with repeats, ends in the same state as marking the whole set at once.
   */
  lemma {:induction false} MarkMinesOrderIrrelevant(st: State, done: set<Coord>, order: seq<Coord>)
    ensures MarkMinesInOrder(MarkMines(st, done), order) == MarkMines(st, done + Elems(order))
    decreases |order|
  {
    if order == [] {
      assert done + Elems(order) == done;
    } else {
      var c := order[0];
      var a := MarkMines(st, done);
      var b := MarkMines(st, done + {c});
      forall i | 0 <= i < |st.knowledge|
        ensures MarkMine(a, c).knowledge[i] == b.knowledge[i]
      {
        S.MarkMineExtends(st.knowledge[i], done, c);
      }
      assert MarkMine(a, c) == b;
      MarkMinesOrderIrrelevant(st, done + {c}, order[1..]);
      assert done + {c} + Elems(order[1..]) == done + Elems(order);
    }
  }

  /** The safe-cell counterpart of MarkMinesOrderIrrelevant. */
  lemma {:induction false} MarkSafesOrderIrrelevant(st: State, done: set<Coord>, order: seq<Coord>)
    ensures MarkSafesInOrder(MarkSafes(st, done), order) == MarkSafes(st, done + Elems(order))
    decreases |order|
  {
    if order == [] {
      assert done + Elems(order) == done;
    } else {
      var c := order[0];
      var a := MarkSafes(st, done);
      var b := MarkSafes(st, done + {c});
      forall i | 0 <= i < |st.knowledge|
        ensures MarkSafe(a, c).knowledge[i] == b.knowledge[i]
      {
        S.MarkSafeExtends(st.knowledge[i], done, c);
      }
      assert MarkSafe(a, c) == b;
      MarkSafesOrderIrrelevant(st, done + {c}, order[1..]);
      assert done + {c} + Elems(order[1..]) == done + Elems(order);
    }
  }

  /** Marking nothing is no change at all. */
  lemma MarkNothing(st: State)
    ensures MarkMines(st, {}) == st && MarkSafes(st, {}) == st
  {
    assert MarkMines(st, {}).knowledge == st.knowledge;
    assert MarkSafes(st, {}).knowledge == st.knowledge;
  }

  /** Whichever order the source's set iteration picks, the batch functions give its result. */
  lemma MarkInAnyOrder(st: State, order: seq<Coord>)
    ensures MarkMinesInOrder(st, order) == MarkMines(st, Elems(order))
    ensures MarkSafesInOrder(st, order) == MarkSafes(st, Elems(order))
  {
    MarkNothing(st);
    MarkMinesOrderIrrelevant(st, {}, order);
    MarkSafesOrderIrrelevant(st, {}, order);
  }

  /**
   * The filter of the evidence loop, as written: the row test is the constant
   * `0 <= 1 < height`, so rows above and below the board are admitted.
   */
  predicate Admits(st: State, p: Coord)
  {
    0 <= 1 < st.height && 0 <= p.1 < st.width && p !in st.safes && p !in st.mines
  }

  /** The cells of `ws` that the evidence loop keeps. */
  function Undetermined(st: State, ws: seq<Coord>): (r: set<Coord>)
    ensures forall p :: p in r <==> p in ws && Admits(st, p)
  {
    if ws == [] then {}
    else (if Admits(st, ws[0]) then {ws[0]} else {}) + Undetermined(st, ws[1..])
  }

  /**
   * The sentence built from revealing `count` at `c`: the window's cells the
   * filter keeps, with `count` less the window's cells already known to be mines.
   */
  function Evidence(st: State, c: Coord, count: int): (r: S.Sentence)
    ensures forall p :: p in r.cells <==> Near(c, p) && Admits(st, p)
    ensures r.cells !! st.safes + st.mines
    ensures r.count == count - |Elems(Window(c)) * st.mines|
  {
    var w := Window(c);
    CountInCard(w, st.mines);
    S.Sentence(Undetermined(st, w), count - CountIn(w, st.mines))
  }

  /** The first half of a propagation step: if sentence `k` names known mines, all of them are marked. */
  function MineStep(st: State, k: nat): (r: State)
    requires k < |st.knowledge|
    ensures |r.knowledge| == |st.knowledge|
    ensures S.KnownMines(st.knowledge[k]) <= r.mines
  {
    var s := st.knowledge[k];
    if S.KnownMines(s) != {} then MarkMines(st, S.KnownMines(s)) else st
  }

  /**
   * A whole propagation step at sentence `k`: its known mines are marked, then,
   * looking at the sentence again, the safe cells it now names.
   */
  function Step(st: State, k: nat): (r: State)
    requires k < |st.knowledge|
    ensures |r.knowledge| == |st.knowledge|
    ensures S.KnownSafes(MineStep(st, k).knowledge[k]) <= r.safes
    ensures r == st.(mines := r.mines, safes := r.safes, knowledge := r.knowledge)
    ensures st.mines <= r.mines && st.safes <= r.safes
    ensures r.mines + r.safes <= st.mines + st.safes + st.knowledge[k].cells
    ensures forall i :: 0 <= i < |r.knowledge| ==> r.knowledge[i].cells <= st.knowledge[i].cells
  {
    var a1 := MineStep(st, k);
    var s1 := a1.knowledge[k];
    if S.KnownSafes(s1) != {} then MarkSafes(a1, S.KnownSafes(s1)) else a1
  }

  /**
   * One pass over the knowledge from index `k` on. Each sentence is looked at as
   * earlier broadcasts have left it; if it names known mines they are all marked,
   * then, looking at it again, if it names known safe cells they are all marked.
   */
  function Propagate(st: State, k: nat): (r: State)
    ensures |r.knowledge| == |st.knowledge|
    ensures st.mines <= r.mines && st.safes <= r.safes
    ensures r.movesMade == st.movesMade && r.height == st.height && r.width == st.width
    ensures forall i :: 0 <= i < |r.knowledge| ==> r.knowledge[i].cells <= st.knowledge[i].cells
    ensures r.mines + r.safes <= st.mines + st.safes + Mentioned(st.knowledge)
    ensures forall i :: 0 <= i < |st.knowledge| && CleanAt(st, i) ==> CleanAt(r, i)
    decreases |st.knowledge| - k
  {
    if k >= |st.knowledge| then st
    else
      var a := Step(st, k);
      assert Mentioned(a.knowledge) <= Mentioned(st.knowledge) by {
        forall p | p in Mentioned(a.knowledge)
          ensures p in Mentioned(st.knowledge)
        {
          var i :| 0 <= i < |a.knowledge| && p in a.knowledge[i].cells;
          assert p in st.knowledge[i].cells;
        }
      }
      assert st.knowledge[k].cells <= Mentioned(st.knowledge);
      assert forall i :: 0 <= i < |st.knowledge| && CleanAt(st, i) ==> CleanAt(a, i) by {
        forall i | 0 <= i < |st.knowledge| && CleanAt(st, i)
          ensures CleanAt(a, i)
        {
          StepStrips(st, k, i);
        }
      }
      Propagate(a, k + 1)
  }

  /** The state a pass begun at sentence `k` has reached when it comes to sentence `j`. */
  function Before(st: State, k: nat, j: nat): (r: State)
    requires k <= j <= |st.knowledge|
    ensures |r.knowledge| == |st.knowledge|
    decreases j - k
  {
    if j == k then st else Before(Step(st, k), k + 1, j)
  }

  /**
   * Whatever a sentence proves when the pass reaches it is recorded: its known
   * mines, and then the known safe cells of what marking those mines left of it.
   */
  lemma {:induction false} PropagateRecords(st: State, k: nat)
    ensures forall j :: k <= j < |st.knowledge| ==>
              S.KnownMines(Before(st, k, j).knowledge[j]) <= Propagate(st, k).mines
    ensures forall j :: k <= j < |st.knowledge| ==>
              S.KnownSafes(MineStep(Before(st, k, j), j).knowledge[j]) <= Propagate(st, k).safes
    decreases |st.knowledge| - k
  {
    if k < |st.knowledge| {
      var a := Step(st, k);
      var r := Propagate(a, k + 1);
      assert Propagate(st, k) == r;
      PropagateRecords(a, k + 1);
      assert MineStep(st, k).mines <= a.mines;
      forall j | k <= j < |st.knowledge|
        ensures S.KnownMines(Before(st, k, j).knowledge[j]) <= r.mines
        ensures S.KnownSafes(MineStep(Before(st, k, j), j).knowledge[j]) <= r.safes
      {
        if j > k {
          assert Before(st, k, j) == Before(a, k + 1, j);
        }
      }
    }
  }

  /**
   * What a pass begun at sentence `k` proves to be mines: each sentence's known
   * mines as the pass reaches it, and nothing else.
   */
  function ProvedMines(st: State, k: nat): set<Coord>
    decreases |st.knowledge| - k
  {
    if k >= |st.knowledge| then {}
    else S.KnownMines(st.knowledge[k]) + ProvedMines(Step(st, k), k + 1)
  }

  /**
   * What a pass begun at sentence `k` proves to be safe: the known safe cells of
   * each sentence as its own mines have left it, and nothing else.
   */
  function ProvedSafes(st: State, k: nat): set<Coord>
    decreases |st.knowledge| - k
  {
    if k >= |st.knowledge| then {}
    else S.KnownSafes(MineStep(st, k).knowledge[k]) + ProvedSafes(Step(st, k), k + 1)
  }

  /** One step records exactly what the visited sentence proves, mines first. */
  lemma StepAdds(st: State, k: nat)
    requires k < |st.knowledge|
    ensures MineStep(st, k).mines == st.mines + S.KnownMines(st.knowledge[k])
    ensures MineStep(st, k).safes == st.safes
    ensures Step(st, k).mines == MineStep(st, k).mines
    ensures Step(st, k).safes == st.safes + S.KnownSafes(MineStep(st, k).knowledge[k])
  {
  }

  /**
   * A pass records exactly what its sentences prove as it reaches them, once
   * each: no more than `PropagateRecords` promises, and nothing from a second look.
   */
  lemma {:induction false} PropagateProves(st: State, k: nat)
    ensures Propagate(st, k).mines == st.mines + ProvedMines(st, k)
    ensures Propagate(st, k).safes == st.safes + ProvedSafes(st, k)
    decreases |st.knowledge| - k
  {
    if k < |st.knowledge| {
      var a := Step(st, k);
      StepAdds(st, k);
      PropagateProves(a, k + 1);
      assert Propagate(st, k) == Propagate(a, k + 1);
    }
  }

  /**
   * One step leaves a sentence that mentioned no resolved cell still clean: it has
   * lost exactly the cells now resolved, and its count the mines among them.
   */
  lemma StepStrips(st: State, k: nat, i: nat)
    requires k < |st.knowledge| && i < |st.knowledge| && CleanAt(st, i)
    ensures CleanAt(Step(st, k), i)
    ensures Step(st, k).knowledge[i].cells == st.knowledge[i].cells - (Step(st, k).mines + Step(st, k).safes)
    ensures Step(st, k).knowledge[i].count == st.knowledge[i].count - |st.knowledge[i].cells * Step(st, k).mines|
  {
    var s := st.knowledge[i];
    var a1 := MineStep(st, k);
    var cs := a1.mines - st.mines;
    assert a1.knowledge[i] == S.MarkMines(s, cs) && a1.safes == st.safes by {
      if S.KnownMines(st.knowledge[k]) != {} {
        assert s.cells * S.KnownMines(st.knowledge[k]) == s.cells * cs;
        assert s.cells - S.KnownMines(st.knowledge[k]) == s.cells - cs;
      } else {
        assert cs == {};
      }
    }
    assert s.cells * cs == s.cells * a1.mines;
    var a := Step(st, k);
    var ds := a.safes - a1.safes;
    assert a.knowledge[i] == S.MarkSafes(a1.knowledge[i], ds) && a.mines == a1.mines by {
      var s1 := a1.knowledge[k];
      if S.KnownSafes(s1) != {} {
        assert a1.knowledge[i].cells - S.KnownSafes(s1) == a1.knowledge[i].cells - ds;
      } else {
        assert ds == {};
      }
    }
  }

  /** A pass leaves a sentence that mentioned no resolved cell without the cells resolved by its end. */
  lemma {:induction false} PropagateStrips(st: State, k: nat, i: nat)
    requires i < |st.knowledge| && CleanAt(st, i)
    ensures CleanAt(Propagate(st, k), i)
    ensures Propagate(st, k).knowledge[i].cells
            == st.knowledge[i].cells - (Propagate(st, k).mines + Propagate(st, k).safes)
    decreases |st.knowledge| - k
  {
    if k < |st.knowledge| {
      var a := Step(st, k);
      assert Propagate(st, k) == Propagate(a, k + 1);
      StepStrips(st, k, i);
      PropagateStrips(a, k + 1, i);
    }
  }

  /** Counting the mines of `c` in two rounds, those of `am` first, counts the mines of `rm`. */
  lemma MinesInTwoRounds(c: set<Coord>, am: set<Coord>, rm: set<Coord>)
    requires am <= rm
    ensures |c * rm| == |c * am| + |(c - am) * rm|
  {
    assert c * rm == (c * am) + (c - am) * rm;
    assert (c * am) !! (c - am) * rm;
  }

  /** The cells a step leaves hold the same later mines as those it did not record as mines. */
  lemma LeftAfterStep(c: set<Coord>, am: set<Coord>, safed: set<Coord>, rm: set<Coord>, rs: set<Coord>)
    requires safed <= rs && rm !! rs
    ensures (c - (am + safed)) * rm == (c - am) * rm
  {
  }

  /**
   * When no cell has been recorded as both mine and safe, a pass takes off the
   * count of a sentence that mentioned no resolved cell exactly the recorded mines
   * among its cells.
   */
  lemma {:induction false} PropagateCounts(st: State, k: nat, i: nat)
    requires i < |st.knowledge| && CleanAt(st, i)
    requires Propagate(st, k).mines !! Propagate(st, k).safes
    ensures Propagate(st, k).knowledge[i].count
            == st.knowledge[i].count - |st.knowledge[i].cells * Propagate(st, k).mines|
    decreases |st.knowledge| - k
  {
    if k < |st.knowledge| {
      var a := Step(st, k);
      var r := Propagate(a, k + 1);
      assert Propagate(st, k) == r;
      StepStrips(st, k, i);
      PropagateCounts(a, k + 1, i);
      var c := st.knowledge[i].cells;
      assert a.mines <= r.mines && a.safes <= r.safes;
      LeftAfterStep(c, a.mines, a.safes, r.mines, r.safes);
      MinesInTwoRounds(c, a.mines, r.mines);
    } else {
      assert Propagate(st, k) == st;
      assert st.knowledge[i].cells * st.mines == {};
    }
  }

  /**
   * One pass is not a fixpoint: with {a, b} = 1 before {b} = 1, the pass marks b
   * a mine only after it has visited the first sentence, which is left as {a} = 0,
   * naming a safe cell the agent never records.
   */
  lemma {:induction false} PropagateIsSinglePass(st: State, a: Coord, b: Coord)
    requires a != b && st.mines == {} && st.safes == {}
    requires st.knowledge == [S.Sentence({a, b}, 1), S.Sentence({b}, 1)]
    ensures Propagate(st, 0).knowledge[0] == S.Sentence({a}, 0)
    ensures S.KnownSafes(Propagate(st, 0).knowledge[0]) == {a}
    ensures a !in Propagate(st, 0).safes
  {
    assert Step(st, 0) == st by {
      assert |{a, b}| == 2;
      assert S.KnownMines(st.knowledge[0]) == {} && S.KnownSafes(st.knowledge[0]) == {};
    }
    var b1 := MarkMines(st, {b});
    assert Step(st, 1) == b1 by {
      assert S.KnownMines(st.knowledge[1]) == {b};
      assert b1.knowledge[1] == S.Sentence({}, 0);
    }
    assert b1.knowledge[0] == S.Sentence({a}, 0) by {
      assert {a, b} * {b} == {b} && {a, b} - {b} == {a};
    }
    assert Propagate(st, 0) == Propagate(st, 1) == Propagate(b1, 2) == b1;
  }

  /** The subset rule fires on `s` for the new sentence `n`. */
  predicate Triggers(n: S.Sentence, s: S.Sentence)
  {
    n.cells <= s.cells && s.count > 0 && n.count > 0 && n != s
  }

  /** The sentence the subset rule derives from `s` and `n`. */
  function Derive(s: S.Sentence, n: S.Sentence): (d: S.Sentence)
    ensures d.cells == s.cells - n.cells && d.cells !! n.cells
    ensures d.count == s.count - n.count
  {
    S.Sentence(s.cells - n.cells, s.count - n.count)
  }

  /** How many sentences the subset loop will derive from `s` and then from its derivations. */
  function Chain(n: S.Sentence, s: S.Sentence): nat
    decreases if s.count > 0 then s.count else 0
  {
    if Triggers(n, s) then 1 + Chain(n, Derive(s, n)) else 0
  }

  /** The work the subset loop still has to do on the pending sentences `ss`. */
  function Work(n: S.Sentence, ss: seq<S.Sentence>): nat
  {
    if ss == [] then 0 else 1 + Chain(n, ss[0]) + Work(n, ss[1..])
  }

  lemma {:induction false} WorkAppend(n: S.Sentence, ss: seq<S.Sentence>, x: S.Sentence)
    ensures Work(n, ss + [x]) == Work(n, ss) + 1 + Chain(n, x)
  {
    if ss != [] {
      assert (ss + [x])[1..] == ss[1..] + [x];
      WorkAppend(n, ss[1..], x);
    }
  }

  /** The sentence at `j` of `r` was derived from an earlier sentence the rule fired on. */
  predicate DerivedAt(n: S.Sentence, r: seq<S.Sentence>, j: int)
    requires 0 <= j < |r|
  {
    exists t :: 0 <= t < j && Triggers(n, r[t]) && r[j] == Derive(r[t], n)
  }

  /** If the rule fires on the sentence at `t` of `r`, its derivation follows later in `r`. */
  predicate ClosedAt(n: S.Sentence, r: seq<S.Sentence>, t: int)
    requires 0 <= t < |r|
  {
    Triggers(n, r[t]) ==> exists j :: t < j < |r| && r[j] == Derive(r[t], n)
  }

  /** The indices from `i` on at which the subset rule fires for `n`, in increasing order. */
  function Firings(n: S.Sentence, r: seq<S.Sentence>, i: nat): (f: seq<nat>)
    ensures forall m :: 0 <= m < |f| ==> i <= f[m] < |r| && Triggers(n, r[f[m]])
    ensures forall t :: i <= t < |r| && Triggers(n, r[t]) ==> t in f
    ensures forall a, b :: 0 <= a < b < |f| ==> f[a] < f[b]
    decreases |r| - i
  {
    if i >= |r| then []
    else
      var rest := Firings(n, r, i + 1);
      if !Triggers(n, r[i]) then rest
      else
        var f := [i] + rest;
        assert forall m :: 0 < m < |f| ==> f[m] == rest[m - 1] && i < f[m];
        f
  }

  /**
   * The subset loop from index `i` on. The loop walks a list it appends to, so the
   * derived sentences are visited too. The result keeps `ks` as a prefix; each
   * appended sentence is derived from an earlier one the rule fired on; and every
   * sentence from `i` on that the rule fires on has its derivation appended after it.
   */
  function SubsetPass(n: S.Sentence, ks: seq<S.Sentence>, i: nat): (r: seq<S.Sentence>)
    requires i <= |ks|
    ensures ks <= r
    ensures forall j :: |ks| <= j < |r| ==> DerivedAt(n, r, j)
    ensures forall t :: i <= t < |r| ==> ClosedAt(n, r, t)
    decreases Work(n, ks[i..])
  {
    if i == |ks| then ks
    else if Triggers(n, ks[i]) then
      var d := Derive(ks[i], n);
      assert ks[i..] == [ks[i]] + ks[i + 1..];
      assert (ks + [d])[i + 1..] == ks[i + 1..] + [d];
      WorkAppend(n, ks[i + 1..], d);
      var r := SubsetPass(n, ks + [d], i + 1);
      assert r[|ks|] == d && r[i] == ks[i];
      assert DerivedAt(n, r, |ks|);
      assert ClosedAt(n, r, i);
      r
    else
      assert ks[i..] == [ks[i]] + ks[i + 1..];
      var r := SubsetPass(n, ks, i + 1);
      assert ClosedAt(n, r, i);
      r
  }

  /** Steps 1 and 2 of `add_knowledge`: the move is recorded and the revealed cell marked safe. */
  function Revealed(st: State, cell: Coord): (r: State)
    ensures r.movesMade == st.movesMade + {cell} && r.safes == st.safes + {cell}
    ensures r.mines == st.mines && r.height == st.height && r.width == st.width
    ensures |r.knowledge| == |st.knowledge|
    ensures forall i :: 0 <= i < |r.knowledge| ==>
              r.knowledge[i].cells == st.knowledge[i].cells - {cell} && r.knowledge[i].count == st.knowledge[i].count
  {
    MarkSafe(st.(movesMade := st.movesMade + {cell}), cell)
  }

  /** Step 3: the evidence sentence appended to the knowledge once the cell is revealed. */
  function WithEvidence(st: State, cell: Coord, count: int): (r: State)
    ensures r == Revealed(st, cell).(knowledge := r.knowledge)
    ensures |r.knowledge| == |st.knowledge| + 1
    ensures r.knowledge[..|st.knowledge|] == Revealed(st, cell).knowledge
    ensures var e := r.knowledge[|st.knowledge|];
            && (forall p :: p in e.cells <==> Near(cell, p) && Admits(Revealed(st, cell), p))
            && cell !in e.cells
            && e.count == count - |Elems(Window(cell)) * st.mines|
  {
    var a2 := Revealed(st, cell);
    a2.(knowledge := a2.knowledge + [Evidence(a2, cell, count)])
  }

  /**
   * `add_knowledge`: record the move, mark the revealed cell safe, append the
   * evidence sentence, run one propagation pass, then the subset loop against the
   * evidence sentence as propagation has left it.
   */
  function AddKnowledge(st: State, cell: Coord, count: int): (r: State)
    ensures r.movesMade == st.movesMade + {cell}
    ensures cell in r.safes
    ensures st.safes <= r.safes && st.mines <= r.mines
    ensures r.height == st.height && r.width == st.width
    ensures |r.knowledge| > |st.knowledge|
    ensures var e := r.knowledge[|st.knowledge|];
            forall p :: p in e.cells ==> Near(cell, p) && 0 <= p.1 < st.width && p !in r.safes + r.mines
    ensures forall j :: |st.knowledge| < j < |r.knowledge| ==> DerivedAt(r.knowledge[|st.knowledge|], r.knowledge, j)
    ensures forall t :: 0 <= t < |r.knowledge| ==> ClosedAt(r.knowledge[|st.knowledge|], r.knowledge, t)
  {
    var a3 := WithEvidence(st, cell, count);
    var a4 := Propagate(a3, 0);
    var idx := |st.knowledge|;
    var n := a4.knowledge[idx];
    assert CleanAt(a3, idx);
    assert CleanAt(a4, idx);
    assert n.cells <= a3.knowledge[idx].cells;
    var ks := SubsetPass(n, a4.knowledge, 0);
    assert ks[idx] == n;
    a4.(knowledge := ks)
  }

  /**
   * The derivations for the firings `f`, placed in order from index `base` of `r`:
   * the first at `base`, derived from the sentence at `f[0]`, and so on.
   */
  predicate DerivedInOrder(n: S.Sentence, r: seq<S.Sentence>, base: nat, f: seq<nat>)
    decreases |f|
  {
    f == [] || (base < |r| && f[0] < |r| && r[base] == Derive(r[f[0]], n) && DerivedInOrder(n, r, base + 1, f[1..]))
  }

  /** Derivations in order, position by position: the `m`-th sits at `base + m`. */
  lemma {:induction false} DerivedInOrderAt(n: S.Sentence, r: seq<S.Sentence>, base: nat, f: seq<nat>)
    requires DerivedInOrder(n, r, base, f)
    ensures f != [] ==> base + |f| <= |r|
    ensures forall m :: 0 <= m < |f| ==> f[m] < |r|
    ensures forall m :: 0 <= m < |f| ==> r[base + m] == Derive(r[f[m]], n)
    decreases |f|
  {
    if f != [] {
      DerivedInOrderAt(n, r, base + 1, f[1..]);
      assert f[0] < |r| && r[base] == Derive(r[f[0]], n);
      forall m | 0 < m < |f|
        ensures f[m] < |r| && r[base + m] == Derive(r[f[m]], n)
      {
        assert f[m] == f[1..][m - 1] && base + m == base + 1 + (m - 1);
      }
    }
  }

  /**
   * From index `base` on, `r` holds exactly one derivation per firing at or after
   * `i`, in the order of the firings.
   */
  predicate AppendsFirings(n: S.Sentence, r: seq<S.Sentence>, base: nat, i: nat)
  {
    |r| == base + |Firings(n, r, i)| && DerivedInOrder(n, r, base, Firings(n, r, i))
  }

  /** A firing at `i` whose derivation sits at `base` extends the firings after `i` and their derivations. */
  lemma FiringInFront(n: S.Sentence, r: seq<S.Sentence>, base: nat, i: nat)
    requires i < base < |r|
    requires Triggers(n, r[i])
    requires r[base] == Derive(r[i], n)
    requires AppendsFirings(n, r, base + 1, i + 1)
    ensures AppendsFirings(n, r, base, i)
  {
    var f := Firings(n, r, i + 1);
    assert Firings(n, r, i) == [i] + f;
    assert ([i] + f)[1..] == f;
  }

  /** Where the rule fires at `i`, the loop goes on over `ks` with the derivation appended. */
  lemma FiringUnfolds(n: S.Sentence, ks: seq<S.Sentence>, i: nat)
    requires i < |ks| && Triggers(n, ks[i])
    ensures var r := SubsetPass(n, ks, i);
            && r == SubsetPass(n, ks + [Derive(ks[i], n)], i + 1)
            && |ks| < |r| && r[|ks|] == Derive(ks[i], n) && r[i] == ks[i]
  {
    var r := SubsetPass(n, ks, i);
    assert r == SubsetPass(n, ks + [Derive(ks[i], n)], i + 1);
    assert (ks + [Derive(ks[i], n)]) <= r;
  }

  /** The step of SubsetPassFirings where the rule fires at `i`. */
  lemma FiringsWhenFiring(n: S.Sentence, ks: seq<S.Sentence>, i: nat)
    requires i < |ks| && Triggers(n, ks[i])
    requires var ks' := ks + [Derive(ks[i], n)]; AppendsFirings(n, SubsetPass(n, ks', i + 1), |ks'|, i + 1)
    ensures AppendsFirings(n, SubsetPass(n, ks, i), |ks|, i)
  {
    var ks' := ks + [Derive(ks[i], n)];
    var b := |ks|;
    assert |ks'| == b + 1;
    FiringUnfolds(n, ks, i);
    FiringInFront(n, SubsetPass(n, ks', i + 1), b, i);
  }

  /** The step of SubsetPassFirings where the rule does not fire at `i`. */
  lemma FiringsWhenNot(n: S.Sentence, ks: seq<S.Sentence>, i: nat)
    requires i < |ks| && !Triggers(n, ks[i])
    requires AppendsFirings(n, SubsetPass(n, ks, i + 1), |ks|, i + 1)
    ensures AppendsFirings(n, SubsetPass(n, ks, i), |ks|, i)
  {
    var r := SubsetPass(n, ks, i);
    assert r == SubsetPass(n, ks, i + 1) && r[i] == ks[i];
    assert Firings(n, r, i) == Firings(n, r, i + 1);
  }

  /**
   * The subset loop appends one derivation per firing, in the order of the
   * firings, and nothing else: the result holds as many sentences beyond `ks` as
   * the rule fires from `i` on, and the `m`-th of them is derived from the
   * sentence of the `m`-th firing. Duplicates are kept.
   */
  lemma {:induction false} SubsetPassFirings(n: S.Sentence, ks: seq<S.Sentence>, i: nat)
    requires i <= |ks|
    ensures AppendsFirings(n, SubsetPass(n, ks, i), |ks|, i)
    decreases Work(n, ks[i..])
  {
    if i == |ks| {
      FiringsAtEnd(n, ks);
    } else if Triggers(n, ks[i]) {
      var ks' := ks + [Derive(ks[i], n)];
      WorkShrinksFiring(n, ks, i);
      SubsetPassFirings(n, ks', i + 1);
      FiringsWhenFiring(n, ks, i);
    } else {
      WorkShrinksSkipping(n, ks, i);
      SubsetPassFirings(n, ks, i + 1);
      FiringsWhenNot(n, ks, i);
    }
  }

  /** Once the loop has passed the last sentence, nothing is appended and nothing fires. */
  lemma FiringsAtEnd(n: S.Sentence, ks: seq<S.Sentence>)
    ensures AppendsFirings(n, SubsetPass(n, ks, |ks|), |ks|, |ks|)
  {
    var r := SubsetPass(n, ks, |ks|);
    assert r == ks;
    assert Firings(n, r, |ks|) == [];
  }

  /** A firing leaves less work: the visited sentence's chain is handed to its derivation. */
  lemma WorkShrinksFiring(n: S.Sentence, ks: seq<S.Sentence>, i: nat)
    requires i < |ks| && Triggers(n, ks[i])
    ensures Work(n, (ks + [Derive(ks[i], n)])[i + 1..]) < Work(n, ks[i..])
  {
    var d := Derive(ks[i], n);
    assert ks[i..] == [ks[i]] + ks[i + 1..];
    assert (ks + [d])[i + 1..] == ks[i + 1..] + [d];
    WorkAppend(n, ks[i + 1..], d);
  }

  /** Passing over a sentence the rule does not fire on leaves less work. */
  lemma WorkShrinksSkipping(n: S.Sentence, ks: seq<S.Sentence>, i: nat)
    requires i < |ks|
    ensures Work(n, ks[i + 1..]) < Work(n, ks[i..])
  {
    assert ks[i..] == [ks[i]] + ks[i + 1..];
  }

  /** The subset loop only appends sentences over cells some earlier sentence already had. */
  lemma {:induction false} SubsetPassAvoids(n: S.Sentence, ks: seq<S.Sentence>, i: nat, resolved: set<Coord>)
    requires i <= |ks|
    requires forall k :: 0 <= k < |ks| ==> ks[k].cells !! resolved
    ensures forall k :: 0 <= k < |SubsetPass(n, ks, i)| ==> SubsetPass(n, ks, i)[k].cells !! resolved
    decreases Work(n, ks[i..])
  {
    if i < |ks| {
      assert ks[i..] == [ks[i]] + ks[i + 1..];
      if Triggers(n, ks[i]) {
        var d := Derive(ks[i], n);
        assert (ks + [d])[i + 1..] == ks[i + 1..] + [d];
        WorkAppend(n, ks[i + 1..], d);
        SubsetPassAvoids(n, ks + [d], i + 1, resolved);
      } else {
        SubsetPassAvoids(n, ks, i + 1, resolved);
      }
    }
  }

  /**
   * A move keeps the knowledge clean: if no sentence mentioned a resolved cell
   * before, none does afterwards, though more cells are now resolved.
   */
  lemma {:induction false} AddKnowledgeKeepsClean(st: State, cell: Coord, count: int)
    requires Clean(st)
    ensures Clean(AddKnowledge(st, cell, count))
  {
    var a1 := st.(movesMade := st.movesMade + {cell});
    var a2 := MarkSafe(a1, cell);
    forall i | 0 <= i < |a2.knowledge|
      ensures CleanAt(a2, i)
    {
      assert CleanAt(st, i);
    }
    var a3 := a2.(knowledge := a2.knowledge + [Evidence(a2, cell, count)]);
    forall i | 0 <= i < |a3.knowledge|
      ensures CleanAt(a3, i)
    {
      if i < |a2.knowledge| {
        assert CleanAt(a2, i);
      }
    }
    var a4 := Propagate(a3, 0);
    forall i | 0 <= i < |a4.knowledge|
      ensures a4.knowledge[i].cells !! a4.mines + a4.safes
    {
      assert CleanAt(a3, i) && CleanAt(a4, i);
    }
    var n := a4.knowledge[|st.knowledge|];
    SubsetPassAvoids(n, a4.knowledge, 0, a4.mines + a4.safes);
    var r := a4.(knowledge := SubsetPass(n, a4.knowledge, 0));
    assert AddKnowledge(st, cell, count) == r;
    forall i | 0 <= i < |r.knowledge|
      ensures CleanAt(r, i)
    {
    }
  }

  /**
   * A move records what the pass learns: each sentence's known mines as the pass
   * reaches it, and the known safe cells of what marking those mines left of it.
   */
  lemma AddKnowledgeRecords(st: State, cell: Coord, count: int)
    ensures var a3 := WithEvidence(st, cell, count);
            var r := AddKnowledge(st, cell, count);
            forall j :: 0 <= j < |a3.knowledge| ==>
              && S.KnownMines(Before(a3, 0, j).knowledge[j]) <= r.mines
              && S.KnownSafes(MineStep(Before(a3, 0, j), j).knowledge[j]) <= r.safes
  {
    PropagateRecords(WithEvidence(st, cell, count), 0);
  }

  /** Each earlier sentence survives a move, less exactly the cells resolved by its end. */
  lemma AddKnowledgeStripsOld(st: State, cell: Coord, count: int, i: nat)
    requires Clean(st) && i < |st.knowledge|
    ensures var r := AddKnowledge(st, cell, count);
            r.knowledge[i].cells == st.knowledge[i].cells - (r.mines + r.safes)
  {
    var a3 := WithEvidence(st, cell, count);
    var a4 := Propagate(a3, 0);
    assert AddKnowledge(st, cell, count).knowledge[i] == a4.knowledge[i];
    assert CleanAt(st, i);
    assert a3.knowledge[i].cells == st.knowledge[i].cells - {cell};
    assert CleanAt(a3, i);
    PropagateStrips(a3, 0, i);
  }

  /**
   * When the move records no cell as both mine and safe, each earlier sentence's
   * count drops by exactly the recorded mines among its cells.
   */
  lemma AddKnowledgeCountsOld(st: State, cell: Coord, count: int, i: nat)
    requires Clean(st) && i < |st.knowledge|
    requires AddKnowledge(st, cell, count).mines !! AddKnowledge(st, cell, count).safes
    ensures var r := AddKnowledge(st, cell, count);
            r.knowledge[i].count == st.knowledge[i].count - |st.knowledge[i].cells * r.mines|
  {
    var r := AddKnowledge(st, cell, count);
    var a3 := WithEvidence(st, cell, count);
    var a4 := Propagate(a3, 0);
    var c := st.knowledge[i].cells;
    assert r.knowledge[i] == a4.knowledge[i] && r.mines == a4.mines && r.safes == a4.safes;
    assert CleanAt(a3, i) && a3.knowledge[i].cells == c - {cell} && a3.knowledge[i].count == st.knowledge[i].count by {
      assert CleanAt(st, i);
    }
    PropagateCounts(a3, 0, i);
    SafeCellHoldsNoMine(c, cell, r.mines, r.safes);
  }

  /** Taking a recorded safe cell out of a set loses none of its recorded mines. */
  lemma SafeCellHoldsNoMine(c: set<Coord>, cell: Coord, mines: set<Coord>, safes: set<Coord>)
    requires cell in safes && mines !! safes
    ensures |(c - {cell}) * mines| == |c * mines|
  {
    assert (c - {cell}) * mines == c * mines;
  }

  /**
   * The evidence sentence, as the move leaves it, is the sentence built from the
   * revealed count less the cells resolved by the move's end; when no cell is
   * recorded as both mine and safe, its count has dropped by the recorded mines
   * among its cells.
   */
  lemma AddKnowledgeEvidence(st: State, cell: Coord, count: int)
    ensures var e0 := Evidence(Revealed(st, cell), cell, count);
            var r := AddKnowledge(st, cell, count);
            var e := r.knowledge[|st.knowledge|];
            && e.cells == e0.cells - (r.mines + r.safes)
            && (r.mines !! r.safes ==> e.count == e0.count - |e0.cells * r.mines|)
  {
    var r := AddKnowledge(st, cell, count);
    var a3 := WithEvidence(st, cell, count);
    var a4 := Propagate(a3, 0);
    var idx := |st.knowledge|;
    assert r.knowledge[idx] == a4.knowledge[idx];
    assert CleanAt(a3, idx);
    PropagateStrips(a3, 0, idx);
    if r.mines !! r.safes {
      PropagateCounts(a3, 0, idx);
    }
  }

  /**
   * A move records exactly what the revealed cell and one propagation pass over
   * the knowledge with the evidence sentence prove; the subset loop adds nothing.
   */
  lemma AddKnowledgeProves(st: State, cell: Coord, count: int)
    ensures var a3 := WithEvidence(st, cell, count);
            var r := AddKnowledge(st, cell, count);
            && r.mines == st.mines + ProvedMines(a3, 0)
            && r.safes == st.safes + {cell} + ProvedSafes(a3, 0)
  {
    var a3 := WithEvidence(st, cell, count);
    PropagateProves(a3, 0);
    assert AddKnowledge(st, cell, count) == Propagate(a3, 0).(knowledge := AddKnowledge(st, cell, count).knowledge);
  }

  /** The subset loop run from the start appends one derivation per firing, in order. */
  lemma SubsetPassAppends(n: S.Sentence, ks: seq<S.Sentence>, base: nat)
    requires |ks| == base
    ensures var r := SubsetPass(n, ks, 0);
            var f := Firings(n, r, 0);
            && |r| == base + |f|
            && forall m :: 0 <= m < |f| ==> r[base + m] == Derive(r[f[m]], n)
  {
    var r := SubsetPass(n, ks, 0);
    SubsetPassFirings(n, ks, 0);
    assert AppendsFirings(n, r, base, 0);
    DerivedInOrderAt(n, r, base, Firings(n, r, 0));
  }

  /** `add_knowledge` ends with the subset loop over what propagation left. */
  lemma AddKnowledgeUnfolds(st: State, cell: Coord, count: int)
    ensures var a4 := Propagate(WithEvidence(st, cell, count), 0);
            var r := AddKnowledge(st, cell, count);
            && |a4.knowledge| == |st.knowledge| + 1
            && r.knowledge == SubsetPass(r.knowledge[|st.knowledge|], a4.knowledge, 0)
  {
  }

  /** A subset loop run from the start over `a` yields `ks`: one more sentence per firing. */
  lemma SubsetPassLength(n: S.Sentence, a: seq<S.Sentence>, ks: seq<S.Sentence>, b: nat)
    requires |a| == b && ks == SubsetPass(n, a, 0)
    ensures |ks| == b + |Firings(n, ks, 0)|
  {
    SubsetPassAppends(n, a, b);
  }

  /**
   * A subset loop run from the start over `a` yields `ks`: the `m`-th appended
   * sentence, at index `j`, comes from the `m`-th firing.
   */
  lemma SubsetPassAppendedAt(n: S.Sentence, a: seq<S.Sentence>, ks: seq<S.Sentence>, m: nat, j: nat)
    requires ks == SubsetPass(n, a, 0)
    requires m < |Firings(n, ks, 0)| && j == |a| + m
    ensures j < |ks| && ks[j] == Derive(ks[Firings(n, ks, 0)[m]], n)
  {
    var b := |a|;
    SubsetPassAppends(n, a, b);
    var f := Firings(n, ks, 0);
    assert ks[b + m] == Derive(ks[f[m]], n);
  }

  /**
   * After the evidence sentence come its derivations and nothing else, one per
   * firing of the subset rule in knowledge order, duplicates kept.
   */
  lemma AddKnowledgeAppends(st: State, cell: Coord, count: int)
    ensures var r := AddKnowledge(st, cell, count);
            var e := r.knowledge[|st.knowledge|];
            var f := Firings(e, r.knowledge, 0);
            && |r.knowledge| == |st.knowledge| + 1 + |f|
            && forall m :: 0 <= m < |f| ==> r.knowledge[|st.knowledge| + 1 + m] == Derive(r.knowledge[f[m]], e)
  {
    var ks := AddKnowledge(st, cell, count).knowledge;
    var a4 := Propagate(WithEvidence(st, cell, count), 0);
    AddKnowledgeUnfolds(st, cell, count);
    var e := ks[|st.knowledge|];
    var f := Firings(e, ks, 0);
    SubsetPassLength(e, a4.knowledge, ks, |st.knowledge| + 1);
    forall m | 0 <= m < |f| {
      SubsetPassAppendedAt(e, a4.knowledge, ks, m, |st.knowledge| + 1 + m);
    }
  }

  /** Any safe cell not yet played, or None when every known safe cell has been played. */
  method MakeSafeMove(st: State) returns (r: Option<Coord>)
    ensures r.None? <==> st.safes <= st.movesMade
    ensures r.Some? ==> r.value in st.safes && r.value !in st.movesMade
  {
    var rest := st.safes;
    while rest != {}
      invariant rest <= st.safes
      invariant forall c :: c in st.safes && c !in rest ==> c in st.movesMade
      decreases rest
    {
      var c :| c in rest;
      if c !in st.movesMade {
        return Some(c);
      }
      rest := rest - {c};
    }
    return None;
  }

  /** A move the random player may make: on the board, not played, not a known mine. */
  predicate Playable(st: State, p: Coord)
  {
    0 <= p.0 < st.height && 0 <= p.1 < st.width && p !in st.movesMade && p !in st.mines
  }

  /**
   * Some playable cell (the source draws one uniformly at random), or None when
   * every cell of the board has been played or is a known mine.
   */
  method MakeRandomMove(st: State) returns (r: Option<Coord>)
    ensures r.None? <==> forall p :: !Playable(st, p)
    ensures r.Some? ==> Playable(st, r.value)
  {
    var possible: seq<Coord> := [];
    var i := 0;
    while i < st.height
      invariant 0 <= i && (i <= st.height || i == 0)
      invariant forall p :: p in possible <==> p.0 < i && Playable(st, p)
    {
      var j := 0;
      while j < st.width
        invariant 0 <= j && (j <= st.width || j == 0)
        invariant forall p :: p in possible <==> (p.0 < i || (p.0 == i && p.1 < j)) && Playable(st, p)
      {
        if (i, j) !in st.movesMade && (i, j) !in st.mines {
          possible := possible + [(i, j)];
        }
        j := j + 1;
      }
      i := i + 1;
    }
    if |possible| != 0 {
      var k :| 0 <= k < |possible|;
      assert Playable(st, possible[k]);
      r := Some(possible[k]);
    } else {
      assert forall p :: Playable(st, p) ==> p in possible;
      r := None;
    }
  }
}

=== FILE: agent_soundness.dfy ===
/**
 * What the agent's deductions are worth: against the true mine placement of a
 * game, every sentence the agent holds stays true, every cell it calls a mine is
 * one and every cell it calls safe is safe, as long as the game reports true
 * counts. The row test of the evidence loop makes this hold only on boards with
 * at least two rows; `OneRowEvidenceFalse` shows the failure on a single row.
 */
module AgentSoundness {
  import opened Coords
  import opened MinesBoard
  import S = Sentences
  import opened Agent

  /** Everything the agent believes is true of the mine placement `m`. */
  predicate Sound(st: State, m: set<Coord>)
  {
    && st.mines <= m
    && st.safes !! m
    && forall i :: 0 <= i < |st.knowledge| ==> S.Holds(st.knowledge[i], m)
  }

  /** A true sentence is internally consistent: its count lies between 0 and its number of cells. */
  lemma {:induction false} SoundCountsInRange(st: State, m: set<Coord>)
    requires Sound(st, m)
    ensures forall i :: 0 <= i < |st.knowledge| ==>
              0 <= st.knowledge[i].count <= |st.knowledge[i].cells|
  {
    forall i | 0 <= i < |st.knowledge|
      ensures 0 <= st.knowledge[i].count <= |st.knowledge[i].cells|
    {
      SubsetCard(st.knowledge[i].cells * m, st.knowledge[i].cells);
    }
  }

  lemma {:induction false} MarkMinesKeepsSound(st: State, cs: set<Coord>, m: set<Coord>)
    requires Sound(st, m) && cs <= m
    ensures Sound(MarkMines(st, cs), m)
  {
    forall i | 0 <= i < |st.knowledge|
      ensures S.Holds(MarkMines(st, cs).knowledge[i], m)
    {
      S.MarkMinesSound(st.knowledge[i], cs, m);
    }
  }

  lemma {:induction false} MarkSafesKeepsSound(st: State, cs: set<Coord>, m: set<Coord>)
    requires Sound(st, m) && cs !! m
    ensures Sound(MarkSafes(st, cs), m)
  {
    forall i | 0 <= i < |st.knowledge|
      ensures S.Holds(MarkSafes(st, cs).knowledge[i], m)
    {
      S.MarkSafesSound(st.knowledge[i], cs, m);
    }
  }

  /** Marking a cell that really is safe keeps the agent sound. */
  lemma {:induction false} MarkSafeKeepsSound(st: State, c: Coord, m: set<Coord>)
    requires Sound(st, m) && c !in m
    ensures Sound(MarkSafe(st, c), m)
  {
    forall i | 0 <= i < |st.knowledge|
      ensures S.Holds(MarkSafe(st, c).knowledge[i], m)
    {
      S.SingleMarks(st.knowledge[i], c);
      S.MarkSafesSound(st.knowledge[i], {c}, m);
    }
  }

  /** A propagation pass over true knowledge only ever marks real mines as mines and safe cells as safe. */
  lemma {:induction false} PropagateSound(st: State, k: nat, m: set<Coord>)
    requires Sound(st, m)
    ensures Sound(Propagate(st, k), m)
    decreases |st.knowledge| - k
  {
    if k < |st.knowledge| {
      var s := st.knowledge[k];
      var a1 := MineStep(st, k);
      assert Sound(a1, m) by {
        S.KnownMinesSound(s, m);
        if S.KnownMines(s) != {} {
          MarkMinesKeepsSound(st, S.KnownMines(s), m);
        }
      }
      var s1 := a1.knowledge[k];
      var a := Step(st, k);
      assert Sound(a, m) by {
        S.KnownSafesSound(s1, m);
        if S.KnownSafes(s1) != {} {
          MarkSafesKeepsSound(a1, S.KnownSafes(s1), m);
        }
      }
      PropagateSound(a, k + 1, m);
      assert Propagate(st, k) == Propagate(a, k + 1);
    }
  }

  /** The subset rule is sound: from two true sentences it derives a true one. */
  lemma DeriveSound(n: S.Sentence, s: S.Sentence, m: set<Coord>)
    requires S.Holds(n, m) && S.Holds(s, m) && Triggers(n, s)
    ensures S.Holds(Derive(s, n), m)
  {
    assert (s.cells - n.cells) * m == (s.cells * m) - (n.cells * m);
    assert n.cells * m <= s.cells * m;
  }

  /** The subset loop over true knowledge appends only true sentences. */
  lemma {:induction false} SubsetPassSound(n: S.Sentence, ks: seq<S.Sentence>, i: nat, m: set<Coord>)
    requires i <= |ks|
    requires S.Holds(n, m)
    requires forall k :: 0 <= k < |ks| ==> S.Holds(ks[k], m)
    ensures forall k :: 0 <= k < |SubsetPass(n, ks, i)| ==> S.Holds(SubsetPass(n, ks, i)[k], m)
    decreases Work(n, ks[i..])
  {
    if i < |ks| {
      assert ks[i..] == [ks[i]] + ks[i + 1..];
      if Triggers(n, ks[i]) {
        var d := Derive(ks[i], n);
        DeriveSound(n, ks[i], m);
        assert (ks + [d])[i + 1..] == ks[i + 1..] + [d];
        WorkAppend(n, ks[i + 1..], d);
        SubsetPassSound(n, ks + [d], i + 1, m);
      } else {
        SubsetPassSound(n, ks, i + 1, m);
      }
    }
  }

  /**
   * On a board of at least two rows, the evidence sentence built from the true
   * count of a safe cell is true: the cells it leaves out are either known mines,
   * which the count is reduced by, or known safe, or off the board and so no mine.
   */
  lemma {:induction false} EvidenceSound(g: Game, st: State, c: Coord)
    requires Valid(g) && st.height == g.height && st.width == g.width
    requires g.height >= 2
    requires c !in g.mines
    requires Sound(st, g.mines)
    ensures S.Holds(Evidence(st, c, NearbyMines(g, c)), g.mines)
  {
    var m := g.mines;
    var e := Evidence(st, c, NearbyMines(g, c));
    var w := Elems(Window(c));
    assert Neighbours(c) * m == w * m;
    WindowMinesSplit(g, st, c, e.cells);
    assert (w * st.mines) !! (e.cells * m);
    assert |w * m| == |w * st.mines| + |e.cells * m|;
  }

  /**
   * On a board of at least two rows, every mine in the window of `c` is either
   * already known or among the cells the evidence filter keeps.
   */
  lemma WindowMinesSplit(g: Game, st: State, c: Coord, cells: set<Coord>)
    requires Valid(g) && st.height == g.height && st.width == g.width
    requires g.height >= 2
    requires Sound(st, g.mines)
    requires forall p :: p in cells <==> Near(c, p) && Admits(st, p)
    ensures Elems(Window(c)) * g.mines == (Elems(Window(c)) * st.mines) + (cells * g.mines)
  {
    var w := Elems(Window(c));
    forall p | p in w * g.mines
      ensures p in (w * st.mines) + (cells * g.mines)
    {
      assert OnBoard(g, p);
    }
  }

  /**
   * Recording the move and appending the evidence sentence of the cell's true
   * count keeps the agent sound, on a board of at least two rows.
   */
  lemma WithEvidenceSound(g: Game, st: State, cell: Coord)
    requires Valid(g) && st.height == g.height && st.width == g.width
    requires g.height >= 2
    requires cell !in g.mines
    requires Sound(st, g.mines)
    ensures Sound(WithEvidence(st, cell, NearbyMines(g, cell)), g.mines)
  {
    var m := g.mines;
    var count := NearbyMines(g, cell);
    var a2 := Revealed(st, cell);
    assert Sound(a2, m) by {
      MarkSafeKeepsSound(st.(movesMade := st.movesMade + {cell}), cell, m);
    }
    var a3 := WithEvidence(st, cell, count);
    EvidenceSound(g, a2, cell);
    assert a3.knowledge == a2.knowledge + [Evidence(a2, cell, count)];
  }

  /**
   * The agent stays sound across a move: on a board of at least two rows, when it
   * reveals a cell that holds no mine and is told that cell's true neighbour count,
   * everything it then believes is still true.
   */
  lemma {:induction false} AddKnowledgeSound(g: Game, st: State, cell: Coord)
    requires Valid(g) && st.height == g.height && st.width == g.width
    requires g.height >= 2
    requires cell !in g.mines
    requires Sound(st, g.mines)
    ensures Sound(AddKnowledge(st, cell, NearbyMines(g, cell)), g.mines)
  {
    var m := g.mines;
    var count := NearbyMines(g, cell);
    var a3 := WithEvidence(st, cell, count);
    WithEvidenceSound(g, st, cell);
    var a4 := Propagate(a3, 0);
    assert Sound(a4, m) by {
      PropagateSound(a3, 0, m);
    }
    var n := a4.knowledge[|st.knowledge|];
    var ks := SubsetPass(n, a4.knowledge, 0);
    assert forall k :: 0 <= k < |ks| ==> S.Holds(ks[k], m) by {
      SubsetPassSound(n, a4.knowledge, 0, m);
    }
    assert AddKnowledge(st, cell, count) == a4.(knowledge := ks);
  }

  /**
   * On a single-row board the row test `0 <= 1 < height` fails for every cell, so
   * the evidence sentence is empty yet keeps the full count: with a mine at (0, 0),
   * revealing (0, 1) leaves the agent believing the false sentence {} = 1.
   */
  lemma OneRowEvidenceFalse()
    ensures var g := Game(1, 3, [[true, false, false]], {(0, 0)}, {});
            && Valid(g)
            && NearbyMines(g, (0, 1)) == 1
            && !Sound(AddKnowledge(Start(1, 3), (0, 1), NearbyMines(g, (0, 1))), g.mines)
  {
    OneRowBoard();
    OneRowFalseBelief(Start(1, 3), (0, 1), 1, {(0, 0)});
  }

  /**
   * On a board of at most one row, a first move told a nonzero count with no mines
   * known leaves the agent believing an empty sentence with that count, which no
   * placement of mines makes true.
   */
  lemma OneRowFalseBelief(st: State, cell: Coord, count: int, m: set<Coord>)
    requires st.height <= 1 && st.knowledge == [] && st.mines == {} && count != 0
    ensures !Sound(AddKnowledge(st, cell, count), m)
  {
    OneRowFirstMove(st, cell, count);
    assert Elems(Window(cell)) * st.mines == {};
    var r := AddKnowledge(st, cell, count);
    assert r.knowledge[0] == S.Sentence({}, count);
    assert !S.Holds(r.knowledge[0], m);
  }

  /** The one-row board with a mine at (0, 0): a consistent board on which (0, 1) has one mine nearby. */
  lemma OneRowBoard()
    ensures var g := Game(1, 3, [[true, false, false]], {(0, 0)}, {});
            Valid(g) && NearbyMines(g, (0, 1)) == 1
  {
    var g := Game(1, 3, [[true, false, false]], {(0, 0)}, {});
    assert Valid(g);
    assert Neighbours((0, 1)) * g.mines == {(0, 0)};
  }

  /**
   * On a board of at most one row the first move's evidence sentence mentions no
   * cell at all, whatever the count, and neither propagation nor the subset loop
   * touch it.
   */
  lemma OneRowFirstMove(st: State, cell: Coord, count: int)
    requires st.height <= 1 && st.knowledge == []
    ensures AddKnowledge(st, cell, count).knowledge
            == [S.Sentence({}, count - |Elems(Window(cell)) * st.mines|)]
  {
    var a1 := st.(movesMade := st.movesMade + {cell});
    var a2 := MarkSafe(a1, cell);
    assert a2.knowledge == [];
    var ev := Evidence(a2, cell, count);
    assert ev.cells == {};
    var a3 := a2.(knowledge := a2.knowledge + [ev]);
    EmptySentenceInert(a3, ev);
    SelfOnlyInert(ev);
    assert AddKnowledge(st, cell, count) == a3;
  }

  /** A lone sentence without cells names no known mine or safe cell, so a pass changes nothing. */
  lemma EmptySentenceInert(st: State, e: S.Sentence)
    requires st.knowledge == [e] && e.cells == {}
    ensures Propagate(st, 0) == st
  {
    assert Propagate(st, 0) == Propagate(st, 1);
  }

  /** The subset rule never fires on the new sentence against itself. */
  lemma SelfOnlyInert(e: S.Sentence)
    ensures SubsetPass(e, [e], 0) == [e]
  {
    assert SubsetPass(e, [e], 0) == SubsetPass(e, [e], 1);
  }

  /**
   * On a board of two or more rows the row test never rejects a row, so the cell
   * above a revealed cell in an on-board column enters the evidence sentence even
   * when it lies above the board. Revealing a count of zero as the first move, with
   * no mines known, then records that cell as safe: for (0, 0) this is (-1, 0).
   */
  lemma {:induction false} CellAboveMarkedSafe(st: State, cell: Coord)
    requires st.knowledge == [] && st.mines == {}
    requires 1 < st.height && 0 <= cell.1 < st.width
    ensures (cell.0 - 1, cell.1) in AddKnowledge(st, cell, 0).safes
  {
    var p := (cell.0 - 1, cell.1);
    var a1 := st.(movesMade := st.movesMade + {cell});
    var a2 := MarkSafe(a1, cell);
    if p !in a2.safes {
      var ev := Evidence(a2, cell, 0);
      assert p in ev.cells && ev.count == 0 by {
        assert Near(cell, p);
      }
      var a3 := a2.(knowledge := a2.knowledge + [ev]);
      var b := MarkSafes(a3, ev.cells);
      assert Propagate(a3, 0) == Propagate(b, 1) by {
        assert a3.knowledge[0] == ev;
      }
      assert p in Propagate(a3, 0).safes;
    }
  }

}

=== FILE: coords.dfy ===
/** Board coordinates shared by both games, and counting over duplicate-free sequences. */
module Coords {

  /** A (row, column) pair. Coordinates are unbounded: nothing stops a cell from lying off the board. */
  type Coord = (int, int)

  /** The elements of a sequence, as a set. */
  function Elems<T>(s: seq<T>): set<T>
  {
    set x | x in s
  }

  /** No element occurs twice. */
  predicate Distinct<T(==)>(s: seq<T>)
  {
    forall a, b :: 0 <= a < b < |s| ==> s[a] != s[b]
  }

  /** `p` lies in the 3x3 block centred on `c` (which includes `c` itself). */
  predicate Near(c: Coord, p: Coord)
  {
    c.0 - 1 <= p.0 <= c.0 + 1 && c.1 - 1 <= p.1 <= c.1 + 1
  }

  /**
   * The 3x3 block centred on `c`, row by row from `c.0 - 1` to `c.0 + 1`, and
   * within each row by increasing column from `c.1 - 1` to `c.1 + 1`.
   */
  function Window(c: Coord): (w: seq<Coord>)
    ensures |w| == 9
    ensures Distinct(w)
    ensures forall p :: p in w <==> Near(c, p)
  {
    var (i, j) := c;
    [(i - 1, j - 1), (i - 1, j), (i - 1, j + 1),
     (i, j - 1), (i, j), (i, j + 1),
     (i + 1, j - 1), (i + 1, j), (i + 1, j + 1)]
  }

  /** The eight neighbours of `c`: its window without `c` itself. */
  function Neighbours(c: Coord): (ns: set<Coord>)
    ensures |ns| == 8
    ensures forall p :: p in ns <==> Near(c, p) && p != c
  {
    DistinctCard(Window(c));
    assert c in Elems(Window(c));
    Elems(Window(c)) - {c}
  }

  /** How many elements of `s` lie in `t`, counted one position at a time. */
  function CountIn<T>(s: seq<T>, t: set<T>): (n: nat)
    ensures n <= |s|
  {
    if s == [] then 0 else (if s[0] in t then 1 else 0) + CountIn(s[1..], t)
  }

  /** A duplicate-free sequence has as many distinct elements as positions. */
  lemma {:induction false} DistinctCard<T>(s: seq<T>)
    requires Distinct(s)
    ensures |Elems(s)| == |s|
  {
    if s != [] {
      DistinctCard(s[1..]);
      assert Elems(s) == {s[0]} + Elems(s[1..]);
      assert s[0] !in Elems(s[1..]) by {
        forall k | 0 <= k < |s[1..]|
          ensures s[1..][k] != s[0]
        {
          assert s[1..][k] == s[k + 1];
        }
      }
    }
  }

  /** Counting position by position over a duplicate-free sequence counts the set it shares with `t`. */
  lemma {:induction false} CountInCard<T>(s: seq<T>, t: set<T>)
    requires Distinct(s)
    ensures CountIn(s, t) == |Elems(s) * t|
  {
    if s != [] {
      CountInCard(s[1..], t);
      var rest := Elems(s[1..]) * t;
      assert s[0] !in rest by {
        forall k | 0 <= k < |s[1..]|
          ensures s[1..][k] != s[0]
        {
          assert s[1..][k] == s[k + 1];
        }
      }
      if s[0] in t {
        assert Elems(s) * t == {s[0]} + rest;
      } else {
        assert Elems(s) * t == rest;
      }
    }
  }

  /** A subset is no larger than its superset. */
  lemma SubsetCard<T>(a: set<T>, b: set<T>)
    requires a <= b
    ensures |a| <= |b|
    ensures |a| == |b| ==> a == b
  {
    assert b == a + (b - a);
  }

  /** Three pairwise disjoint sets have as many elements together as apart. */
  lemma DisjointUnionCard<T>(x: set<T>, y: set<T>, z: set<T>)
    requires x !! y && x !! z && y !! z
    ensures |x + y + z| == |x| + |y| + |z|
  {
    assert (x + y) !! z;
  }
}

=== FILE: mines_board.dfy ===
/**
 * The Minesweeper game board: the ground truth (where the mines are) that the
 * agent never sees directly, and the adjacency queries the game answers.
 */
module MinesBoard {
  import opened Coords

  /**
   * A board of `height` rows and `width` columns. `grid[i][j]` says whether a mine
   * sits at (i, j); `mines` lists the same cells as a set; `minesFound` holds the
   * cells the player has flagged.
   */
  datatype Game = Game(height: int, width: int, grid: seq<seq<bool>>,
                       mines: set<Coord>, minesFound: set<Coord>)

  /** Row and column within the board. */
  predicate OnBoard(g: Game, p: Coord)
  {
    0 <= p.0 < g.height && 0 <= p.1 < g.width
  }

  /**
   * The invariant the constructor establishes: a height x width grid whose true
   * squares are exactly the cells of `mines`, all of them on the board.
   */
  predicate Valid(g: Game)
  {
    && |g.grid| == g.height
    && (forall i :: 0 <= i < |g.grid| ==> |g.grid[i]| == g.width)
    && (forall i, j :: 0 <= i < g.height && 0 <= j < g.width ==> (g.grid[i][j] <==> (i, j) in g.mines))
    && (forall p :: p in g.mines ==> OnBoard(g, p))
  }

  /** Whether `c` holds a mine; any cell off the board is reported as no mine. */
  function IsMine(g: Game, c: Coord): (r: bool)
    requires Valid(g)
    ensures r <==> c in g.mines
    ensures !OnBoard(g, c) ==> !r
  {
    var (i, j) := c;
    if i >= 0 && i < |g.grid| && j >= 0 && j < |g.grid[i]| then g.grid[i][j] else false
  }

  /** The inner loop of `nearby_mines`: skip `c`, count on-board squares that hold a mine. */
  function CountNearby(g: Game, c: Coord, ws: seq<Coord>): (n: nat)
    requires Valid(g)
    ensures n == CountIn(ws, g.mines - {c})
  {
    if ws == [] then 0
    else
      var (i, j) := ws[0];
      (if ws[0] != c && 0 <= i < g.height && 0 <= j < g.width && g.grid[i][j] then 1 else 0)
      + CountNearby(g, c, ws[1..])
  }

  /**
   * The number of mines among the eight neighbours of `c`. The cell itself is
   * never counted and neither is any square off the board, so the answer is at most 8.
   */
  function NearbyMines(g: Game, c: Coord): (n: nat)
    requires Valid(g)
    ensures n == |Neighbours(c) * g.mines|
    ensures n <= 8
  {
    var w := Window(c);
    CountInCard(w, g.mines - {c});
    assert Elems(w) * (g.mines - {c}) == Neighbours(c) * g.mines;
    SubsetCard(Neighbours(c) * g.mines, Neighbours(c));
    CountNearby(g, c, w)
  }

  /** The player has won when the flagged cells are exactly the mines. */
  function Won(g: Game): (r: bool)
    ensures r <==> g.mines <= g.minesFound && g.minesFound <= g.mines
  {
    g.minesFound == g.mines
  }

  /**
   * A flag on a safe cell or an unflagged mine rules out a win; flagging an
   * unflagged mine wins exactly when it was the only mine still unflagged.
   */
  lemma WonNeedsEveryFlag(g: Game, c: Coord)
    ensures c in g.minesFound && c !in g.mines ==> !Won(g)
    ensures c in g.mines && c !in g.minesFound ==> !Won(g)
    ensures c in g.mines && c !in g.minesFound ==>
              (Won(g.(minesFound := g.minesFound + {c})) <==> g.minesFound == g.mines - {c})
  {
    if c in g.mines && c !in g.minesFound && g.minesFound + {c} == g.mines {
      assert g.minesFound == g.mines - {c};
    }
  }
}

=== FILE: sentences.dfy ===
/**
 * A sentence of the Minesweeper agent's knowledge: "exactly `count` of `cells`
 * are mines". Sentences are values here; the source's in-place mutators become
 * functions returning the updated sentence.
 */
module Sentences {
  import opened Coords

  datatype Sentence = Sentence(cells: set<Coord>, count: int)

  /** The sentence is true of the mine placement `m`. */
  predicate Holds(s: Sentence, m: set<Coord>)
  {
    |s.cells * m| == s.count
  }

  /** Every cell, when as many mines remain as cells and that number is not zero; otherwise nothing. */
  function KnownMines(s: Sentence): (r: set<Coord>)
    ensures r <= s.cells
    ensures r != {} ==> r == s.cells
    ensures r != {} <==> |s.cells| == s.count && s.count != 0
  {
    if |s.cells| == s.count && s.count != 0 then s.cells else {}
  }

  /** Every cell, when no mine remains among them; otherwise nothing. */
  function KnownSafes(s: Sentence): (r: set<Coord>)
    ensures r <= s.cells
    ensures s.count == 0 ==> r == s.cells
    ensures s.count != 0 ==> r == {}
  {
    if s.count == 0 then s.cells else {}
  }

  /** Learn that `c` is a mine: a member leaves the sentence and takes one mine with it. */
  function MarkMine(s: Sentence, c: Coord): (r: Sentence)
    ensures r.cells == s.cells - {c}
    ensures c in s.cells ==> r.count == s.count - 1 && |r.cells| == |s.cells| - 1
    ensures c !in s.cells ==> r == s
  {
    if c in s.cells then Sentence(s.cells - {c}, s.count - 1) else s
  }

  /** Learn that `c` is safe: a member leaves the sentence, the mine count stays. */
  function MarkSafe(s: Sentence, c: Coord): (r: Sentence)
    ensures r.cells == s.cells - {c} && r.count == s.count
    ensures c in s.cells ==> |r.cells| == |s.cells| - 1
    ensures c !in s.cells ==> r == s
  {
    if c in s.cells then Sentence(s.cells - {c}, s.count) else s
  }

  /** The sentence after every cell of `cs` has been marked a mine, in any order. */
  function MarkMines(s: Sentence, cs: set<Coord>): (r: Sentence)
    ensures r.cells == s.cells - cs
  {
    Sentence(s.cells - cs, s.count - |s.cells * cs|)
  }

  /** The sentence after every cell of `cs` has been marked safe, in any order. */
  function MarkSafes(s: Sentence, cs: set<Coord>): (r: Sentence)
    ensures r.cells == s.cells - cs && r.count == s.count
  {
    Sentence(s.cells - cs, s.count)
  }

  /** Marking the same cell a second time changes nothing. */
  lemma MarkIdempotent(s: Sentence, c: Coord)
    ensures MarkMine(MarkMine(s, c), c) == MarkMine(s, c)
    ensures MarkSafe(MarkSafe(s, c), c) == MarkSafe(s, c)
  {
  }

  /** Marking one more mine extends a batch of mines by that cell. */
  lemma MarkMineExtends(s: Sentence, cs: set<Coord>, c: Coord)
    ensures MarkMine(MarkMines(s, cs), c) == MarkMines(s, cs + {c})
  {
    if c in s.cells - cs {
      assert s.cells * (cs + {c}) == s.cells * cs + {c};
    } else {
      assert s.cells * (cs + {c}) == s.cells * cs;
    }
  }

  /** Marking one more safe cell extends a batch of safe cells by that cell. */
  lemma MarkSafeExtends(s: Sentence, cs: set<Coord>, c: Coord)
    ensures MarkSafe(MarkSafes(s, cs), c) == MarkSafes(s, cs + {c})
  {
  }

  /** A sentence true of `m` reports as known mines only cells of `m`. */
  lemma KnownMinesSound(s: Sentence, m: set<Coord>)
    requires Holds(s, m)
    ensures KnownMines(s) <= m
  {
    if KnownMines(s) != {} {
      SubsetCard(s.cells * m, s.cells);
    }
  }

  /** A sentence true of `m` reports as known safe only cells outside `m`. */
  lemma KnownSafesSound(s: Sentence, m: set<Coord>)
    requires Holds(s, m)
    ensures KnownSafes(s) !! m
  {
    if s.count == 0 {
      assert s.cells * m == {};
      forall x | x in KnownSafes(s)
        ensures x !in m
      {
        assert x in s.cells && x !in s.cells * m;
      }
    }
  }

  /** Marking cells of `m` as mines keeps a sentence true of `m`. */
  lemma {:induction false} MarkMinesSound(s: Sentence, cs: set<Coord>, m: set<Coord>)
    requires Holds(s, m) && cs <= m
    ensures Holds(MarkMines(s, cs), m)
  {
    assert (s.cells - cs) * m == (s.cells * m) - (s.cells * cs);
    assert s.cells * cs <= s.cells * m;
  }

  /** Marking cells outside `m` as safe keeps a sentence true of `m`. */
  lemma {:induction false} MarkSafesSound(s: Sentence, cs: set<Coord>, m: set<Coord>)
    requires Holds(s, m) && cs !! m
    ensures Holds(MarkSafes(s, cs), m)
  {
    assert (s.cells - cs) * m == s.cells * m;
  }

  /** Marking a single cell is the one-element batch. */
  lemma SingleMarks(s: Sentence, c: Coord)
    ensures MarkMine(s, c) == MarkMines(s, {c})
    ensures MarkSafe(s, c) == MarkSafes(s, {c})
  {
    if c in s.cells {
      assert s.cells * {c} == {c};
    } else {
      assert s.cells * {c} == {};
    }
  }
}

=== FILE: tictactoe.dfy ===
/**
 * The rules of Tic-Tac-Toe on a 3x3 board: whose turn it is, which moves are
 * open, what a move produces, and who has won. `winner` is modelled as written:
 * both of its branches test X, so it never reports O.
 */
module TicTacToe {
  import opened Wrappers
  import opened Coords

  datatype Mark = X | O

  /** A square holds a mark or is empty (`None`, the source's EMPTY). */
  type Square = Option<Mark>

  predicate IsBoard(b: seq<seq<Square>>)
  {
    |b| == 3 && |b[0]| == 3 && |b[1]| == 3 && |b[2]| == 3
  }

  type Board = b: seq<seq<Square>> | IsBoard(b)
    witness [[None, None, None], [None, None, None], [None, None, None]]

  /** The error `result` raises for a move onto a taken or missing square. */
  datatype MoveError = InvalidAction

  predicate InGrid(p: Coord)
  {
    0 <= p.0 < 3 && 0 <= p.1 < 3
  }

  /** The nine squares, in the row-major order of the source's nested loops. */
  function Squares(): (ps: seq<Coord>)
    ensures |ps| == 9 && Distinct(ps)
    ensures forall p :: p in ps <==> InGrid(p)
  {
    [(0, 0), (0, 1), (0, 2), (1, 0), (1, 1), (1, 2), (2, 0), (2, 1), (2, 2)]
  }

  function At(b: Board, p: Coord): Square
    requires InGrid(p)
  {
    b[p.0][p.1]
  }

  /** The squares holding mark `m`. */
  function Marked(b: Board, m: Mark): set<Coord>
  {
    set p | p in Squares() && At(b, p) == Some(m)
  }

  /** The board a game starts from: every square empty. */
  function InitialState(): (b: Board)
    ensures forall p :: InGrid(p) ==> At(b, p) == None
  {
    [[None, None, None], [None, None, None], [None, None, None]]
  }

  /** The counting loop of `player` for one mark over the squares `ps`. */
  function CountMark(b: Board, m: Mark, ps: seq<Coord>): (n: nat)
    requires forall p :: p in ps ==> InGrid(p)
    ensures n == CountIn(ps, Marked(b, m))
  {
    if ps == [] then 0
    else (if At(b, ps[0]) == Some(m) then 1 else 0) + CountMark(b, m, ps[1..])
  }

  /** Which mark has the next turn: O exactly when X has more marks on the board. */
  function Player(b: Board): (r: Mark)
    ensures r == O <==> |Marked(b, X)| > |Marked(b, O)|
    ensures r == X <==> |Marked(b, X)| <= |Marked(b, O)|
  {
    var ps := Squares();
    CountInCard(ps, Marked(b, X));
    CountInCard(ps, Marked(b, O));
    assert Elems(ps) * Marked(b, X) == Marked(b, X);
    assert Elems(ps) * Marked(b, O) == Marked(b, O);
    if CountMark(b, X, ps) > CountMark(b, O, ps) then O else X
  }

  /** The collecting loop of `actions` over the squares `ps`. */
  function EmptyAmong(b: Board, ps: seq<Coord>): (r: set<Coord>)
    requires forall p :: p in ps ==> InGrid(p)
    ensures forall p :: p in r <==> p in ps && At(b, p) == None
  {
    if ps == [] then {}
    else (if At(b, ps[0]) == None then {ps[0]} else {}) + EmptyAmong(b, ps[1..])
  }

  /** The moves open on the board: exactly the empty squares. */
  function Actions(b: Board): (r: set<Coord>)
    ensures forall p :: p in r <==> InGrid(p) && b[p.0][p.1] == None
  {
    EmptyAmong(b, Squares())
  }

  /** The board with mark `m` written into square `a` and every other square kept. */
  function Place(b: Board, a: Coord, m: Mark): (r: Board)
    requires InGrid(a)
    ensures At(r, a) == Some(m)
    ensures forall p :: InGrid(p) && p != a ==> At(r, p) == At(b, p)
  {
    var row := b[a.0][a.1 := Some(m)];
    assert |row| == 3;
    b[a.0 := row]
  }

  /**
   * The board after the player to move takes square `a`. A square that is taken
   * or not on the board is refused; otherwise the new board differs from `b` in
   * square `a` alone, which now holds the mover's mark.
   */
  function ResultOf(b: Board, a: Coord): (r: Result<Board, MoveError>)
    ensures r.Success? <==> a in Actions(b)
    ensures r.Failure? ==> r.error == InvalidAction
    ensures r.Success? ==> InGrid(a) && At(r.value, a) == Some(Player(b))
    ensures r.Success? ==> forall p :: InGrid(p) && p != a ==> At(r.value, p) == At(b, p)
  {
    if a !in Actions(b) then Failure(InvalidAction)
    else Success(Place(b, a, Player(b)))
  }

  /** Row `i` holds three of `m`. */
  predicate RowFull(b: Board, m: Mark, i: int)
    requires 0 <= i < 3
  {
    forall j :: 0 <= j < 3 ==> b[i][j] == Some(m)
  }

  /** Column `j` holds three of `m`. */
  predicate ColFull(b: Board, m: Mark, j: int)
    requires 0 <= j < 3
  {
    forall i :: 0 <= i < 3 ==> b[i][j] == Some(m)
  }

  /** The loop of `checkRows` from row `row` on, returning at the first full row. */
  function RowsFrom(b: Board, m: Mark, row: nat): (r: bool)
    ensures r <==> exists i :: row <= i < 3 && RowFull(b, m, i)
    decreases 3 - row
  {
    if row >= 3 then false
    else if b[row][0] == Some(m) && b[row][1] == Some(m) && b[row][2] == Some(m) then
      assert RowFull(b, m, row);
      true
    else RowsFrom(b, m, row + 1)
  }

  /** The loop of `checkCols` from column `col` on, returning at the first full column. */
  function ColsFrom(b: Board, m: Mark, col: nat): (r: bool)
    ensures r <==> exists j :: col <= j < 3 && ColFull(b, m, j)
    decreases 3 - col
  {
    if col >= 3 then false
    else if b[0][col] == Some(m) && b[1][col] == Some(m) && b[2][col] == Some(m) then
      assert ColFull(b, m, col);
      true
    else ColsFrom(b, m, col + 1)
  }

  /** Some row is filled with `m`. */
  function CheckRows(b: Board, m: Mark): (r: bool)
    ensures r <==> exists i :: 0 <= i < 3 && RowFull(b, m, i)
  {
    RowsFrom(b, m, 0)
  }

  /** Some column is filled with `m`. */
  function CheckCols(b: Board, m: Mark): (r: bool)
    ensures r <==> exists j :: 0 <= j < 3 && ColFull(b, m, j)
  {
    ColsFrom(b, m, 0)
  }

  /** The squares of the leading diagonal that hold `m`. */
  function PrimaryHits(b: Board, m: Mark): set<Coord>
  {
    set p | p in Squares() && p.0 == p.1 && At(b, p) == Some(m)
  }

  /** The squares of the other diagonal (`len(board) - row - 1 == col`) that hold `m`. */
  function SecondHits(b: Board, m: Mark): set<Coord>
  {
    set p | p in Squares() && 3 - p.0 - 1 == p.1 && At(b, p) == Some(m)
  }

  /** The counting loop of `checkPrimary` over the squares `ps`. */
  function CountPrimary(b: Board, m: Mark, ps: seq<Coord>): (n: nat)
    requires forall p :: p in ps ==> InGrid(p)
    ensures n == CountIn(ps, PrimaryHits(b, m))
  {
    if ps == [] then 0
    else (if ps[0].0 == ps[0].1 && At(b, ps[0]) == Some(m) then 1 else 0) + CountPrimary(b, m, ps[1..])
  }

  /** The counting loop of `checkSecond` over the squares `ps`. */
  function CountSecond(b: Board, m: Mark, ps: seq<Coord>): (n: nat)
    requires forall p :: p in ps ==> InGrid(p)
    ensures n == CountIn(ps, SecondHits(b, m))
  {
    if ps == [] then 0
    else (if 3 - ps[0].0 - 1 == ps[0].1 && At(b, ps[0]) == Some(m) then 1 else 0) + CountSecond(b, m, ps[1..])
  }

  /** A subset of a three-element set has three elements exactly when it is the whole set. */
  lemma ThreeOfThree(d: set<Coord>, t: set<Coord>)
    requires d <= t && |t| == 3
    ensures |d| == 3 <==> t <= d
  {
    SubsetCard(d, t);
    if t <= d {
      assert d == t;
    }
  }

  /** The leading diagonal's hits lie on its three squares and fill them exactly when it is full. */
  lemma PrimaryHitsShape(b: Board, m: Mark)
    ensures PrimaryHits(b, m) <= {(0, 0), (1, 1), (2, 2)}
    ensures {(0, 0), (1, 1), (2, 2)} <= PrimaryHits(b, m) <==> forall i :: 0 <= i < 3 ==> b[i][i] == Some(m)
  {
    var hits := PrimaryHits(b, m);
    forall p | p in hits
      ensures p in {(0, 0), (1, 1), (2, 2)}
    {
      assert InGrid(p) && p.1 == p.0;
    }
    if forall i :: 0 <= i < 3 ==> b[i][i] == Some(m) {
      forall p | p in {(0, 0), (1, 1), (2, 2)}
        ensures p in hits
      {
        assert InGrid(p) && p.1 == p.0 && b[p.0][p.0] == Some(m);
        assert p in Squares();
      }
    }
    if {(0, 0), (1, 1), (2, 2)} <= hits {
      forall i | 0 <= i < 3
        ensures b[i][i] == Some(m)
      {
        assert (i, i) in hits;
      }
    }
  }


  /** The other diagonal's hits lie on its three squares and fill them exactly when it is full. */
  lemma SecondHitsShape(b: Board, m: Mark)
    ensures SecondHits(b, m) <= {(0, 2), (1, 1), (2, 0)}
    ensures {(0, 2), (1, 1), (2, 0)} <= SecondHits(b, m) <==> forall i :: 0 <= i < 3 ==> b[i][2 - i] == Some(m)
  {
    var hits := SecondHits(b, m);
    forall p | p in hits
      ensures p in {(0, 2), (1, 1), (2, 0)}
    {
      assert InGrid(p) && p.1 == 2 - p.0;
    }
    if forall i :: 0 <= i < 3 ==> b[i][2 - i] == Some(m) {
      forall p | p in {(0, 2), (1, 1), (2, 0)}
        ensures p in hits
      {
        assert InGrid(p) && p.1 == 2 - p.0 && b[p.0][2 - p.0] == Some(m);
        assert p in Squares();
      }
    }
    if {(0, 2), (1, 1), (2, 0)} <= hits {
      forall i | 0 <= i < 3
        ensures b[i][2 - i] == Some(m)
      {
        assert (i, 2 - i) in hits;
      }
    }
  }


  /** The leading diagonal's count reaches three exactly when the diagonal is full. */
  lemma PrimaryCount(b: Board, m: Mark)
    ensures CountPrimary(b, m, Squares()) == 3 <==> forall i :: 0 <= i < 3 ==> b[i][i] == Some(m)
  {
    var ps := Squares();
    var hits := PrimaryHits(b, m);
    assert CountPrimary(b, m, ps) == |hits| by {
      CountInCard(ps, hits);
      assert Elems(ps) * hits == hits;
    }
    PrimaryFull(b, m);
  }

  /** The leading diagonal holds three of `m`'s marks exactly when it is full. */
  lemma PrimaryFull(b: Board, m: Mark)
    ensures |PrimaryHits(b, m)| == 3 <==> forall i :: 0 <= i < 3 ==> b[i][i] == Some(m)
  {
    var hits := PrimaryHits(b, m);
    var diagonal := {(0, 0), (1, 1), (2, 2)};
    assert |hits| == 3 <==> diagonal <= hits by {
      assert |diagonal| == 3;
      PrimaryHitsShape(b, m);
      ThreeOfThree(hits, diagonal);
    }
    PrimaryHitsShape(b, m);
  }

  /** The other diagonal's count reaches three exactly when that diagonal is full. */
  lemma SecondCount(b: Board, m: Mark)
    ensures CountSecond(b, m, Squares()) == 3 <==> forall i :: 0 <= i < 3 ==> b[i][2 - i] == Some(m)
  {
    var ps := Squares();
    var hits := SecondHits(b, m);
    assert CountSecond(b, m, ps) == |hits| by {
      CountInCard(ps, hits);
      assert Elems(ps) * hits == hits;
    }
    SecondFull(b, m);
  }

  /** The other diagonal holds three of `m`'s marks exactly when it is full. */
  lemma SecondFull(b: Board, m: Mark)
    ensures |SecondHits(b, m)| == 3 <==> forall i :: 0 <= i < 3 ==> b[i][2 - i] == Some(m)
  {
    var hits := SecondHits(b, m);
    var diagonal := {(0, 2), (1, 1), (2, 0)};
    assert |hits| == 3 <==> diagonal <= hits by {
      assert |diagonal| == 3;
      SecondHitsShape(b, m);
      ThreeOfThree(hits, diagonal);
    }
    SecondHitsShape(b, m);
  }

  /** `checkPrimary`: the leading diagonal is filled with `m`. */
  function CheckPrimary(b: Board, m: Mark): (r: bool)
    ensures r <==> forall i :: 0 <= i < 3 ==> b[i][i] == Some(m)
  {
    PrimaryCount(b, m);
    CountPrimary(b, m, Squares()) == 3
  }

  /** `checkSecond`: the other diagonal, bottom-left to top-right, is filled with `m`. */
  function CheckSecond(b: Board, m: Mark): (r: bool)
    ensures r <==> forall i :: 0 <= i < 3 ==> b[i][2 - i] == Some(m)
  {
    SecondCount(b, m);
    CountSecond(b, m, Squares()) == 3
  }

  /** A line of three squares. */
  type Line = (Coord, Coord, Coord)

  /** The eight winning lines: three rows, three columns, two diagonals. */
  function Lines(): (ls: seq<Line>)
    ensures |ls| == 8
    ensures forall k :: 0 <= k < 8 ==> InGrid(ls[k].0) && InGrid(ls[k].1) && InGrid(ls[k].2)
  {
    [((0, 0), (0, 1), (0, 2)), ((1, 0), (1, 1), (1, 2)), ((2, 0), (2, 1), (2, 2)),
     ((0, 0), (1, 0), (2, 0)), ((0, 1), (1, 1), (2, 1)), ((0, 2), (1, 2), (2, 2)),
     ((0, 0), (1, 1), (2, 2)), ((0, 2), (1, 1), (2, 0))]
  }

  /** Every square of line `k` holds `m`. */
  predicate Full(b: Board, m: Mark, k: int)
    requires 0 <= k < 8
  {
    var l := Lines()[k];
    At(b, l.0) == Some(m) && At(b, l.1) == Some(m) && At(b, l.2) == Some(m)
  }

  /** Mark `m` has three in a line. */
  predicate HasLine(b: Board, m: Mark)
  {
    exists k :: 0 <= k < 8 && Full(b, m, k)
  }

  lemma RowsAreLines(b: Board, m: Mark)
    ensures CheckRows(b, m) <==> Full(b, m, 0) || Full(b, m, 1) || Full(b, m, 2)
  {
    assert RowFull(b, m, 0) <==> Full(b, m, 0);
    assert RowFull(b, m, 1) <==> Full(b, m, 1);
    assert RowFull(b, m, 2) <==> Full(b, m, 2);
  }

  lemma ColsAreLines(b: Board, m: Mark)
    ensures CheckCols(b, m) <==> Full(b, m, 3) || Full(b, m, 4) || Full(b, m, 5)
  {
    assert ColFull(b, m, 0) <==> Full(b, m, 3);
    assert ColFull(b, m, 1) <==> Full(b, m, 4);
    assert ColFull(b, m, 2) <==> Full(b, m, 5);
  }

  lemma DiagonalsAreLines(b: Board, m: Mark)
    ensures CheckPrimary(b, m) <==> Full(b, m, 6)
    ensures CheckSecond(b, m) <==> Full(b, m, 7)
  {
    assert Full(b, m, 6) <==> forall i :: 0 <= i < 3 ==> b[i][i] == Some(m) by {
      assert Lines()[6] == ((0, 0), (1, 1), (2, 2));
    }
    assert Full(b, m, 7) <==> forall i :: 0 <= i < 3 ==> b[i][2 - i] == Some(m) by {
      assert Lines()[7] == ((0, 2), (1, 1), (2, 0));
    }
  }

  lemma HasLineCases(b: Board, m: Mark)
    ensures HasLine(b, m) <==> Full(b, m, 0) || Full(b, m, 1) || Full(b, m, 2) || Full(b, m, 3)
                               || Full(b, m, 4) || Full(b, m, 5) || Full(b, m, 6) || Full(b, m, 7)
  {
    if HasLine(b, m) {
      var k :| 0 <= k < 8 && Full(b, m, k);
      assert k == 0 || k == 1 || k == 2 || k == 3 || k == 4 || k == 5 || k == 6 || k == 7;
    }
  }

  /** The four checks together find exactly the eight winning lines. */
  lemma ChecksFindLines(b: Board, m: Mark)
    ensures CheckRows(b, m) || CheckCols(b, m) || CheckPrimary(b, m) || CheckSecond(b, m)
            <==> HasLine(b, m)
  {
    RowsAreLines(b, m);
    ColsAreLines(b, m);
    DiagonalsAreLines(b, m);
    HasLineCases(b, m);
  }

  /**
   * `winner` as written: both branches test X, so it reports X exactly when X has
   * a line and otherwise nothing, never O.
   */
  function Winner(b: Board): (r: Option<Mark>)
    ensures r == Some(X) <==> HasLine(b, X)
    ensures r == None <==> !HasLine(b, X)
    ensures r != Some(O)
  {
    ChecksFindLines(b, X);
    if CheckRows(b, X) || CheckCols(b, X) || CheckPrimary(b, X) || CheckSecond(b, X) then Some(X)
    else if CheckRows(b, X) || CheckCols(b, X) || CheckPrimary(b, X) || CheckSecond(b, X) then Some(O)
    else None
  }

  /** The value of a board: 1 when X has a line, otherwise 0; the -1 for an O win is never reached. */
  function Utility(b: Board): (r: int)
    ensures r == 1 <==> HasLine(b, X)
    ensures r == 0 <==> !HasLine(b, X)
    ensures r != -1
  {
    if Winner(b) == Some(X) then 1
    else if Winner(b) == Some(O) then -1
    else 0
  }

  /** A board where O has the top row: `winner` reports no one and `utility` scores it 0. */
  lemma WinnerMissesO()
    ensures var b: Board := [[Some(O), Some(O), Some(O)], [Some(X), Some(X), None], [Some(X), None, None]];
            HasLine(b, O) && Winner(b) == None && Utility(b) == 0
  {
    var b: Board := [[Some(O), Some(O), Some(O)], [Some(X), Some(X), None], [Some(X), None, None]];
    assert Full(b, O, 0);
    assert !HasLine(b, X) by {
      forall k | 0 <= k < 8
        ensures !Full(b, X, k)
      {
      }
    }
  }

  /** Every square is open or holds one of the two marks. */
  lemma SquaresCovered(b: Board)
    ensures Elems(Squares()) <= Actions(b) + Marked(b, X) + Marked(b, O)
  {
    forall p | p in Elems(Squares())
      ensures p in Actions(b) + Marked(b, X) + Marked(b, O)
    {
      assert p in Squares();
      match At(b, p)
      case None => assert p in Actions(b);
      case Some(X) => assert p in Marked(b, X);
      case Some(O) => assert p in Marked(b, O);
    }
  }

  /** Open squares are squares of the board. */
  lemma ActionsOnBoard(b: Board)
    ensures Actions(b) <= Elems(Squares())
  {
    forall p | p in Actions(b)
      ensures p in Elems(Squares())
    {
      assert InGrid(p);
      assert p in Squares();
    }
  }

  /** No square is both open and marked, or marked twice. */
  lemma SquaresDisjoint(b: Board)
    ensures Actions(b) !! Marked(b, X) && Actions(b) !! Marked(b, O) && Marked(b, X) !! Marked(b, O)
  {
  }

  /** The empty squares and the two marks' squares split the nine squares between them. */
  lemma SquaresPartition(b: Board)
    ensures |Actions(b)| + |Marked(b, X)| + |Marked(b, O)| == 9
  {
    DistinctCard(Squares());
    SquaresCovered(b);
    ActionsOnBoard(b);
    assert Elems(Squares()) == Actions(b) + Marked(b, X) + Marked(b, O);
    SquaresDisjoint(b);
    DisjointUnionCard(Actions(b), Marked(b, X), Marked(b, O));
  }

  /** The game starts empty with X to move and every square open. */
  lemma InitialStateOpen()
    ensures Player(InitialState()) == X
    ensures Actions(InitialState()) == Elems(Squares())
  {
    var b := InitialState();
    assert Marked(b, X) == {} && Marked(b, O) == {} by {
      forall p | p in Squares()
        ensures At(b, p) == None
      {
      }
    }
    SquaresPartition(b);
    ActionsOnBoard(b);
    DistinctCard(Squares());
    SubsetCard(Actions(b), Elems(Squares()));
  }

  /** The other player. */
  function Opponent(m: Mark): Mark
  {
    if m == X then O else X
  }

  /** The mark counts of a game played from the empty board: X leads by at most one. */
  predicate Balanced(b: Board)
  {
    |Marked(b, X)| == |Marked(b, O)| || |Marked(b, X)| == |Marked(b, O)| + 1
  }

  /** Marking an open square closes it and leaves the other open squares open. */
  lemma PlaceCloses(b: Board, a: Coord, m: Mark)
    requires a in Actions(b)
    ensures Actions(Place(b, a, m)) == Actions(b) - {a}
  {
    var b' := Place(b, a, m);
    forall p | p in Actions(b')
      ensures p in Actions(b) - {a}
    {
      assert InGrid(p);
      assert p != a;
      assert At(b', p) == At(b, p);
    }
    forall p | p in Actions(b) - {a}
      ensures p in Actions(b')
    {
      assert At(b', p) == At(b, p);
    }
  }

  /** Marking an open square adds it to the marker's squares. */
  lemma PlaceAddsMark(b: Board, a: Coord, m: Mark)
    requires a in Actions(b)
    ensures Marked(Place(b, a, m), m) == Marked(b, m) + {a}
  {
    var b' := Place(b, a, m);
    assert a in Squares();
    forall p | p in Squares() && p != a
      ensures At(b', p) == At(b, p)
    {
    }
  }

  /** Marking an open square leaves the other mark's squares as they were. */
  lemma PlaceKeepsOther(b: Board, a: Coord, m: Mark, n: Mark)
    requires a in Actions(b) && n != m
    ensures Marked(Place(b, a, m), n) == Marked(b, n)
  {
    var b' := Place(b, a, m);
    forall p | p in Squares() && p != a
      ensures At(b', p) == At(b, p)
    {
    }
  }

  /**
   * A legal move takes its square out of the open moves, adds it to the mover's
   * squares and leaves the opponent's squares alone.
   */
  lemma ResultTakesSquare(b: Board, a: Coord)
    requires a in Actions(b)
    ensures var b' := ResultOf(b, a).value;
            && Actions(b') == Actions(b) - {a}
            && Marked(b', Player(b)) == Marked(b, Player(b)) + {a}
            && Marked(b', Opponent(Player(b))) == Marked(b, Opponent(Player(b)))
  {
    var m := Player(b);
    assert ResultOf(b, a).value == Place(b, a, m);
    PlaceCloses(b, a, m);
    PlaceAddsMark(b, a, m);
    PlaceKeepsOther(b, a, m, Opponent(m));
  }

  /** From a balanced board every legal move keeps the counts balanced and passes the turn. */
  lemma {:induction false} TurnsAlternate(b: Board, a: Coord)
    requires Balanced(b) && a in Actions(b)
    ensures Balanced(ResultOf(b, a).value)
    ensures Player(ResultOf(b, a).value) == Opponent(Player(b))
  {
    ResultTakesSquare(b, a);
    assert a !in Marked(b, Player(b));
  }
}

=== FILE: wrappers.dfy ===
/** Option and Result, used for the source's `None` returns and raised exceptions. */
module Wrappers {

  /** A value that may be absent: the source returns `None` for "no such cell". */
  datatype Option<+T> = None | Some(value: T)

  /** The outcome of an operation that the source aborts by raising an exception. */
  datatype Result<+R, +E> = Success(value: R) | Failure(error: E)
}
